=== FILE: README.md ===
# Trading bot decision and risk engine in Dafny

This project models the decision core of a securities and options trading bot.
That core has five parts:

- **The risk manager.** It sizes positions, sets volatility-adaptive stop-loss and take-profit levels, and runs a three-step trade validation: aggregate risk, base-asset correlation and per-symbol exposure. It keeps a `positions` / `total_risk` ledger.
- **The bot's decision logic.** It turns the technical and options analysis payloads into an ordered list of opportunities and validates each one. A symbol can hold one position at a time. The bot keeps its `active_trades` ledger in step with the risk manager, decides exits, and computes P&L. One trading cycle runs under a cap of five concurrent trades, and shutdown drains the open positions.
- **The technical strategy's signal rules.** These are trend votes, RSI classification, the ATR trend and level, pivot points, the entry rule, and ATR-based stop and target levels. They are stated over the indicator values of the last bar.
- **The options strategy's rules.** These are the three-way trend, the band-width trend, volatility-band gating of the spread categories, and fixed-percentage stop and target levels.
- **The base-strategy helpers.** These are fixed-fraction sizing, the risk/reward ratio, and the buy/sell position map.

Prices, sizes and ratios are `real`. Ledgers are `map<string, Trade>` keyed by symbol. Every operation that changes state returns a new state.

The modules follow the source files:

| module | file |
|---|---|
| `Wrappers` | `Option` |
| `Config` | the constants of `config.py` |
| `Portfolio` | the trade record, ledgers, and the sum of a weight over a ledger |
| `RiskManagement` | `risk_management.py` |
| `BaseStrategy` | `strategies/base_strategy.py` |
| `TechnicalStrategy` | `strategies/technical_strategy.py` |
| `OptionsStrategy` | `strategies/options_strategy.py` |
| `TradingBot` | `trading_bot.py` |

Direction, action and trend vocabularies stay strings. The source always tests `== 'long'` (or `'buy'`, `'bullish'`, …) and sends every other value to the else branch, and it compares the trend label `'bullish'` against the direction `'long'`.

The invariant the bot keeps is `TradingBot.Inv`:

- every trade is filed under its own symbol;
- the bot's `active_trades` equals the risk manager's `positions`;
- `total_risk` equals the sum of `calculate_trade_risk` over those positions.

Opening, closing, one position sweep, one symbol's turn, a whole cycle and shutdown all preserve it. The sum is the ghost function `Portfolio.Total`. The compiled checks that sum over a ledger do so with the loop in `Portfolio.SumLedger`, whose contract ties the loop to `Total`.

The outside world is the parameter `TradingBot.Market`. It supplies:

- the resolved trade parameters of an opportunity;
- the execution gateway's verdict on an open;
- the last price of a symbol, or `None` when the feed fails;
- the gateway's verdict on a close.

## Model

| member | source | states |
|---|---|---|
| Portfolio.SumLedger | risk_management.py:63-69 | Visiting a ledger's entries one at a time and adding a weight gives exactly the ledger's total of that weight. This is the loop behind both summing checks. |
| Portfolio.TotalRemove | risk_management.py:134-137 | A ledger's total is the removed entry's weight plus the total of the rest, whichever entry is removed. |
| Portfolio.TotalInsert | risk_management.py:131-133 | Adding a fresh symbol adds exactly its weight to the total. |
| Portfolio.TotalNonNegative | risk_management.py:139-146 | A total of non-negative weights is non-negative. |
| RiskManagement.PositionSize | risk_management.py:13-29 | The size never exceeds 20% of capital. It is positive when capital is. The loss at the stop is at most 2% of capital, and at most 0.7 of that above 0.3 volatility. The size is either the 20% clamp or exactly the (damped) risk budget over the stop distance. |
| RiskManagement.PositionSizeDampedByVolatility | risk_management.py:23-29 | For non-negative capital, higher volatility never gives a larger size. |
| RiskManagement.PositionSizeExample | tests/test_trading_bot.py:64-73 | Capital 100000, entry 50000, stop 48000 and volatility 0.2 give a size of 1, which is positive as the test expects. |
| RiskManagement.TradeRisk | risk_management.py:50-56 | Risk times the absolute entry price equals the stop distance times the size. It is non-negative for a non-negative size. |
| RiskManagement.BaseAsset | risk_management.py:71-76 | The base asset is a prefix of the symbol without '/'. It is followed by '/' unless it is the whole symbol. |
| RiskManagement.BaseAssetUpToSlash | risk_management.py:76 | The base asset is exactly the text before the first '/'. |
| RiskManagement.CorrelatedExactlyWhenBasesMatch | risk_management.py:71-76 | Two symbols are correlated (`AreCorrelated`) exactly when their base assets are equal: pairs base1/quote1 and base2/quote2 exactly when base1 = base2, whatever the quotes, and a pair against a symbol without '/' exactly when that symbol is the pair's base. |
| RiskManagement.BaseAssetOfPlainSymbol | risk_management.py:76 | A symbol without '/' is its own base asset. |
| RiskManagement.CorrelationIsEquivalence | risk_management.py:71-76 | Correlation is reflexive (a symbol is always correlated with itself), symmetric and transitive. |
| RiskManagement.CorrelationExamples | risk_management.py:71-76 | BTC/USDT and BTC/EUR are correlated; BTC/USDT and ETH/USDT are not. |
| RiskManagement.CheckPositionCorrelation | risk_management.py:58-69 | Accepts exactly when the sizes of the given positions sharing the candidate's base asset sum to strictly less than 0.15. The candidate's own size is not part of the sum. |
| RiskManagement.CheckMaxExposure | risk_management.py:78-89 | Accepts exactly when the candidate's size plus the sizes of the manager's own same-symbol positions is at most 0.2. The portfolio value plays no part. |
| RiskManagement.ValidateTrade | risk_management.py:31-48 | Accepts exactly when all three limits of `WithinLimits` hold: total risk plus the trade's risk at most 0.06, correlated exposure below 0.15, and same-symbol exposure at most 0.2. The state is an input only. |
| RiskManagement.ValidateTradeExample | tests/test_trading_bot.py:75-86 | The test's 0.1 BTC trade risks 0.004 and is within every limit of a fresh manager. |
| RiskManagement.CorrelationIgnoresCandidateSize | risk_management.py:63-69 | Existing BTC positions of 0.07 and 0.05 leave a correlated exposure of 0.12, which passes, although a further 0.05 would bring the total to 0.17. |
| RiskManagement.CalculateStopLoss | risk_management.py:91-107 | The stop lies 3%, 1.6% or 2% of the entry away, for volatility above 0.3, below 0.1, or in between. For a positive entry it is below the entry exactly for a long. |
| RiskManagement.CalculateTakeProfit | risk_management.py:109-125 | The target lies 5.2%, 3.6% or 4% of the entry away under the same thresholds. For a positive entry it is above the entry exactly for a long. |
| RiskManagement.DistancesGrowWithVolatility | risk_management.py:96-120 | Higher volatility never brings the stop or the target closer to the entry, as a fraction of the entry. |
| RiskManagement.LevelsBracketEntry | risk_management.py:91-125 | For a positive entry, stop < entry < target for a long and target < entry < stop for any other direction, in every volatility regime. |
| RiskManagement.LevelExamples | risk_management.py:91-125 | Entry 100, long, volatility 0.35 gives a stop of 97. Entry 100, short, volatility 0.05 gives a target of 96.4. |
| RiskManagement.EmptyIsConsistent | risk_management.py:7-11 | A new manager holds no positions and a zero total that matches them. |
| RiskManagement.UpdatePosition | risk_management.py:127-137 | An open files the trade under its symbol and adds its risk. A close of a held symbol removes it and subtracts its stored risk. A close of an absent symbol changes nothing. No other symbol is touched. |
| RiskManagement.UpdatePreservesConsistency | risk_management.py:127-137 | An open of a fresh symbol, and any close, keep the running total equal to the sum of the positions' risks. |
| RiskManagement.ReopenDriftsRisk | risk_management.py:131-133 | Opening a held symbol again counts the old trade's risk twice: the total is 0.04 while the positions sum to 0.02. |
| RiskManagement.AcceptedOpenStaysWithinCeiling | risk_management.py:31-38 | Opening a fresh trade that validation accepts keeps the state consistent, with the summed risk at most 0.06. |
| RiskManagement.ConsistentRiskNonNegative | risk_management.py:139-146 | With no negative sizes, a consistent total risk is non-negative, so the reported capacity is at most 0.06. |
| RiskManagement.GetPortfolioStats | risk_management.py:139-146 | The report counts the positions, returns them, reports the running total risk as it stands, and a capacity that adds up with it to 0.06. |
| RiskManagement.StatsReportRemainingCapacity | risk_management.py:139-146 | In a consistent state the capacity is 0.06 minus the summed risk. After an accepted fresh open it is non-negative and the count has grown by one. |
| BaseStrategy.CalculatePositionSize | strategies/base_strategy.py:22-24 | The size divided by the capital is the risk fraction, and zero capital gives a zero size. With a fraction in [0, 1] the size lies between 0 and the capital. |
| BaseStrategy.CalculateRiskReward | strategies/base_strategy.py:31-35 | The ratio is never negative. Times the stop distance it gives the target distance, and it is 0 when the stop sits on the entry. |
| BaseStrategy.UpdatePositions | strategies/base_strategy.py:47-53 | A buy stores the result under its symbol and a sell removes the symbol. Any other action leaves the map unchanged, and other symbols are never touched. |
| BaseStrategy.GetPositionStatus | strategies/base_strategy.py:55-57 | Returns the stored trade exactly when the symbol is held. |
| BaseStrategy.StatusAfterUpdate | strategies/base_strategy.py:47-57 | The status shows the trade after a buy and nothing after a sell. Other symbols' statuses are unchanged. |
| BaseStrategy.BuyThenSellRestores | strategies/base_strategy.py:47-53 | Buying and then selling a symbol not held restores the map. |
| TechnicalStrategy.CountBullish | strategies/technical_strategy.py:69 | The count is the number of occurrences of the label "bullish" among the values; it is at most the number of values, and zero exactly when no value is that label. |
| TechnicalStrategy.AnalyzeTrend | strategies/technical_strategy.py:59-72 | The EMA vote is "bullish" exactly when the short EMA is above the long one and the MACD vote exactly when the MACD is above its signal, "bearish" otherwise. Overall is "bullish" exactly when both the EMA vote and the MACD vote are bullish, since the numeric strength never votes but counts in the record's size; otherwise "bearish". The strength is the non-negative MACD–signal distance. |
| TechnicalStrategy.AnalyzeMomentum | strategies/technical_strategy.py:74-82 | "oversold" exactly below 30 and "overbought" exactly above 70; 30 and 70 themselves are "neutral". |
| TechnicalStrategy.IsMonotonicIncreasing | strategies/technical_strategy.py:89 | The neighbour test holds exactly when every later value is at least every earlier one. |
| TechnicalStrategy.IsMonotonicDecreasing | strategies/technical_strategy.py:90 | The neighbour test holds exactly when every later value is at most every earlier one. |
| TechnicalStrategy.RecentWindow | strategies/technical_strategy.py:86 | The window is the last five values, or all of them when there are fewer. |
| TechnicalStrategy.AnalyzeVolatility | strategies/technical_strategy.py:84-92 | "increasing" exactly when the recent window is non-decreasing, checked first. "decreasing" when it is only non-increasing, "neutral" when it is neither. The current ATR is the last value and the level is its category. |
| TechnicalStrategy.FlatWindowIsIncreasing | strategies/technical_strategy.py:89-90 | A constant ATR series counts as increasing. |
| TechnicalStrategy.CategorizeVolatility | strategies/technical_strategy.py:133-140 | "low" exactly below 0.5, "medium" exactly on [0.5, 1.5), "high" otherwise. |
| TechnicalStrategy.CategorizeVolatilityMonotone | strategies/technical_strategy.py:133-140 | A larger ATR never gives a lower level. |
| TechnicalStrategy.FindSupportResistance | strategies/technical_strategy.py:94-105 | The pivot is the mean of high, low and close. R1 and S1 mirror the low and the high about it, so R1 − S1 is the bar's range and S1 ≤ pivot ≤ R1 when the close lies within the bar. |
| TechnicalStrategy.FindEntryPoints | strategies/technical_strategy.py:107-131 | The entry is "long" exactly when both trend votes are bullish and the RSI is below 30 or above 70; otherwise it is "none". "short" is never produced, and the strength is "strong" exactly when there is an entry. |
| TechnicalStrategy.GenerateSignals | strategies/technical_strategy.py:29-57 | Each entry of the signal record is its rule applied to the last bar: trend, momentum, pivots and entry. The volatility entry is the reading of the whole ATR column, whose current ATR is the last bar's. |
| TechnicalStrategy.SignalDictRoundTrip | strategies/technical_strategy.py:50-57 | The signal dictionary carries every signal: reading its five entries back gives the record. |
| TechnicalStrategy.SignalDictKeys | strategies/technical_strategy.py:50-57 | The dictionary has exactly five keys. Neither "entry" nor "strength" is among them, and the entry signal sits under "entry_points". |
| TechnicalStrategy.Analyze | strategies/technical_strategy.py:17-27 | The payload carries the symbol, the timeframe and the signals of the data. |
| TechnicalStrategy.EntryAndTrendVocabulariesDiffer | strategies/technical_strategy.py:59-131 | An entry always comes with a "bullish" overall trend, yet the overall label never equals the entry label. |
| TechnicalStrategy.SetStopLoss | strategies/technical_strategy.py:142-148 | The stop is two ATRs from the entry, below it exactly for a long when the ATR is positive. |
| TechnicalStrategy.SetTakeProfit | strategies/technical_strategy.py:150-156 | The target is three ATRs from the entry, above it exactly for a long when the ATR is positive. |
| TechnicalStrategy.TechnicalRewardRisk | strategies/technical_strategy.py:142-156 | With a non-zero ATR the risk/reward ratio of these levels is 1.5 in either direction. |
| OptionsStrategy.DetermineTrend | strategies/options_strategy.py:90-102 | "bullish" exactly when MACD > signal and close > middle band. "bearish" exactly when both are below. "neutral" exactly when neither holds. |
| OptionsStrategy.TrendCasesPartition | strategies/options_strategy.py:90-102 | The trend is one of the three labels, and the bullish and bearish conditions never hold together. |
| OptionsStrategy.AnalyzeVolatility | strategies/options_strategy.py:104-110 | The reading is the last band width. It is "increasing" exactly when that width is strictly above the previous one, and otherwise "decreasing". |
| OptionsStrategy.GenerateSignals | strategies/options_strategy.py:38-52 | The signals hold the last bar's trend, the band-width reading, and the momentum reading of the last bar's RSI and MACD histogram. |
| OptionsStrategy.AnalyzeOptionsOpportunities | strategies/options_strategy.py:54-88 | Outside [0.15, 0.45] all three lists are empty. Inside it, bullish fills only vertical spreads from bull-call candidates and bearish only from bear-put candidates. Neutral fills iron condors and calendar spreads, and any other label leaves everything empty. |
| OptionsStrategy.OpportunitiesNeedBandAndExcludeEachOther | strategies/options_strategy.py:62-88 | Any candidate implies the volatility was in the band. Vertical spreads never appear with iron condors or calendar spreads. |
| OptionsStrategy.Analyze | strategies/options_strategy.py:14-36 | The payload is the opportunity analysis for the last bar's trend. |
| OptionsStrategy.SetStopLoss | strategies/options_strategy.py:139-144 | The stop is 30% of the entry away, below it exactly for a long when the entry is positive. |
| OptionsStrategy.SetTakeProfit | strategies/options_strategy.py:146-151 | The target is 100% of the entry away for a long and 50% otherwise, above the entry exactly for a long when the entry is positive. |
| OptionsStrategy.OptionsRewardRisk | strategies/options_strategy.py:139-151 | For a non-zero entry the ratio is 10/3 for a long and 5/3 otherwise. |
| TradingBot.NewBotSatisfiesInv | trading_bot.py:21-28 | A new bot, with empty ledgers and an empty risk manager, satisfies the invariant. |
| TradingBot.Start | trading_bot.py:30-33 | Starting sets the run flag and the portfolio value and leaves both ledgers alone. |
| TradingBot.Truthies | trading_bot.py:85-87 | No more candidates are kept than were reported. Every kept one is truthy and was reported, and every truthy reported one is kept. |
| TradingBot.TruthiesExact | trading_bot.py:85-87 | Each truthy candidate is kept as often as it was reported and no other is kept, in the order of the report. |
| TradingBot.OptionsFrom | trading_bot.py:84-93 | One options opportunity per truthy candidate, in order, each tagged with the category and the symbol. |
| TradingBot.OptionsOpportunities | trading_bot.py:84-93 | The options part lists vertical spreads, then iron condors, then calendar spreads, each slice tagged with its category. |
| TradingBot.IdentifyOpportunities | trading_bot.py:68-95 | One technical opportunity comes first exactly when the entry is not "none", followed by the options part. Every element carries the technical payload's symbol, and no other index holds a technical opportunity. |
| TradingBot.OpportunityCount | trading_bot.py:68-95 | The length is one for a live entry plus the number of truthy candidates. |
| TradingBot.IdentifyOpportunitiesAsWritten | trading_bot.py:75-80 | Reading "entry" straight from the signal dictionary raises a key error when that key is missing. A value found there is a signal record, never "none", so "strength" is read next and raises when missing. |
| TradingBot.IdentifyAsWrittenAlwaysFails | trading_bot.py:75 | That lookup raises for every technical payload the strategy builds. |
| TradingBot.ValidateTechnicalTrade | trading_bot.py:111-129 | Accepts exactly when the strength is "strong", the trend's overall label equals the direction, and the risk manager's limits hold against the bot's open trades. |
| TradingBot.ValidateOptionsTrade | trading_bot.py:131-137 | Options opportunities are always accepted. |
| TradingBot.ValidateOpportunity | trading_bot.py:97-109 | A held symbol is always refused, as is an unrecognised type. An options opportunity passes exactly when its symbol is free. A technical one passes exactly when its symbol is free and the technical checks pass. |
| TradingBot.TechnicalOpportunitiesNeverPassGate | trading_bot.py:119-121 | A technical opportunity built from the strategy's own signals never passes the trend check, because "long" never equals "bullish". |
| TradingBot.ExecuteTrade | trading_bot.py:139-161 | When the open goes through, the trade is filed in both ledgers under its symbol. When the gateway fails, nothing changes. |
| TradingBot.ExecutePreservesInv | trading_bot.py:151-156 | Opening a fresh symbol keeps the invariant and adds exactly that symbol, or nothing when the gateway fails. |
| TradingBot.ClosePosition | trading_bot.py:226-256 | When the close goes through, the symbol leaves both ledgers. When the gateway fails, it stays in both. |
| TradingBot.ClosePreservesInv | trading_bot.py:243-249 | Closing keeps the invariant and removes exactly the closed symbol, or nothing when the gateway fails. |
| TradingBot.CheckExitConditions | trading_bot.py:215-224 | A long exits exactly when price ≤ stop or price ≥ target. Any other direction exits exactly when price ≥ stop or price ≤ target. |
| TradingBot.CalculatePnl | trading_bot.py:258-263 | For a positive size, a long gains exactly when the exit is above the entry and any other direction exactly when it is below. The P&L is zero at the entry. |
| TradingBot.PnlLongShortOpposite | trading_bot.py:258-263 | The long and the non-long P&L of the same move are negations of each other. |
| TradingBot.PnlOrder | trading_bot.py:258-263 | For a positive size, a higher exit price gives a higher P&L for a long and a lower one for any other direction, strictly and non-strictly. |
| TradingBot.PnlExample | tests/test_trading_bot.py:130-140 | 50000 to 52000 with size 0.1 gives 200. |
| TradingBot.ExitMeansStopOrTargetReached | trading_bot.py:215-263 | For a bracketed position, exit fires exactly when the P&L has reached the loss at the stop or the gain at the target. The entry price never triggers an exit. |
| TradingBot.StopHitIsSwept | tests/test_trading_bot.py:110-128 | The test's long with its stop at 48000 is closed by the sweep at a price of 48000 when the gateway acknowledges the close. |
| TradingBot.StopHitKeptWithoutCloseAck | trading_bot.py:226-256 | Without that acknowledgement the same long has hit its stop, yet the sweep keeps it open. |
| TradingBot.ManagePositions | trading_bot.py:202-213 | After one sweep, a position remains exactly when it was open and not closed by the sweep. A position leaves only if its price was available, its exit condition held and the close went through. Survivors are unchanged, and the invariant holds. |
| TradingBot.ProcessOpportunities | trading_bot.py:60-63 | For a symbol already held nothing changes. For a free symbol, it ends up held exactly when some opportunity in the list is an options opportunity, or a technical one that passes the trend check and the risk limits, and the gateway acknowledges its open. The invariant is kept, at most the symbol's own key is added, and no existing trade is altered. |
| TradingBot.ProcessSymbol | trading_bot.py:50-66 | A position held before the turn survives it exactly when the sweep does not close it. The symbol's own key, if new, appears only when one of its opportunities opens. The turn keeps the invariant and adds at most that symbol, and starting under five open trades it ends with at most five. |
| TradingBot.TurnStaysWithinCap | trading_bot.py:46-48 | A turn that starts under the cap and adds at most one symbol ends within the cap. |
| TradingBot.TradingLoop | trading_bot.py:44-66 | A cycle keeps the invariant and opens only cycle symbols. It never goes above five open trades, or above the starting count when that was already higher. At five or more it changes nothing. |
| TradingBot.TradingLoopAsWritten | trading_bot.py:44-66 | With the entry lookup as written, a cycle that reaches its first symbol raises there: the bot comes out unchanged, with nothing opened and no sweep. |
| TradingBot.ValidatedOpenStaysWithinCeiling | trading_bot.py:124-156 | An open on a free symbol whose parameters pass the risk manager's limits keeps the invariant and the bot's total risk within 0.06. |
| TradingBot.OptionsOpenCanExceedCeiling | trading_bot.py:131-156 | An options opportunity is accepted without the risk checks: a consistent bot at total risk 0.06 opens a spread and reaches 0.08. |
| TradingBot.DrainReach | trading_bot.py:271-273 | The drain reaches exactly the positions before the first failed price fetch. |
| TradingBot.Stop | trading_bot.py:265-273 | Stopping clears the run flag and keeps the invariant. A position stays open exactly when the drain did not reach it or its close failed. Nothing is added or altered, and a complete drain leaves both ledgers empty with zero risk. |

## Left out

- Market data I/O (exchange, HTTP, cache), the monitoring web app, logging, timestamps and the `start` loop's sleep-and-retry. The market is the `Market` parameter, and one cycle is modelled.
- Indicator computation (RSI, EMA, MACD, ATR, Bollinger bands). The rules are stated over given last-bar values, the ATR series and the band columns. Not-a-number values from indicator warm-up are not modelled.
- `prepare_trade_parameters` (trading_bot.py:163-200). The resolved parameters come from `Market.resolve`, which keeps the symbol and the type and gives a non-zero entry. In the source the function cannot succeed:
  - it calls the four-argument sizer with three arguments;
  - it reads an asynchronous quote without awaiting it;
  - it reads a `direction` key that options opportunities do not carry.

  Inside `execute_trade` (trading_bot.py:141-161) a handler swallows these failures, which the model covers as an open the gateway does not acknowledge. The first call for a technical opportunity is different: it comes from `validate_technical_trade` (trading_bot.py:124), and no handler guards it there, in `validate_opportunity` or in `trading_loop`. Its failure would end the whole cycle at `start`'s handler (trading_bot.py:40-42) rather than fail one open. The model's `ValidateTechnicalTrade` instead returns the risk verdict. As written this call is never reached: `TechnicalOpportunitiesNeverPassGate` shows that no technical opportunity built from the strategy passes the trend check before it, and `IdentifyAsWrittenAlwaysFails` shows that the cycle raises even earlier, at the entry lookup. The source resolves the parameters twice per technical opportunity, once to validate and once to execute; the model resolves them once.
- The spread finders (strategies/options_strategy.py:119-137) are stubs returning nothing, so extending a list with their result would fail. They are modelled as uninterpreted functions in `SpreadFinders`, returning candidate lists.
- The options momentum reading (strategies/options_strategy.py:112-117) is carried in the signals but drives nothing.
- `BaseStrategy.validate_trade` and the abstract stop and target methods (strategies/base_strategy.py:26-45) have no body to model.
- `execute_technical_trade` and `execute_options_trade` are not defined anywhere in the repository. Their outcome is the `gatewayOk` flag. An exception anywhere in the close makes `close_position` skip the bookkeeping, which is the failed-close path.
- `update_position` with an action other than open or close does nothing in the source. `PositionUpdate` has only those two actions.
- OptionsStrategy.BandWidth requires a non-zero middle band, where floating point would produce an infinity.
- RiskManagement.PositionSize requires entry ≠ stop, because the source divides by their distance.
- RiskManagement.TradeRisk requires entry ≠ 0 for the same reason, so every stored position has a non-zero entry (`Priced`).
- TradingBot.TradingLoop: `manage_positions` is called inside the per-symbol loop (trading_bot.py:66), after the cap test whose `break` (trading_bot.py:47-48) ends the loop, so a cycle that starts at the cap runs no sweep at all. The model promises no sweep at the cap.
- TradingBot.TradingLoop: a failed `analyze` call aborts the source's cycle. The model takes the analysis payloads as inputs and has no such abort.
- RiskManagement.CheckPositionCorrelation: the sum at risk_management.py:63-69 runs over the current positions only and leaves out the candidate's own size, so existing correlated exposure of 0.12 passes whatever the candidate adds (`CorrelationIgnoresCandidateSize`). The model promises no bound on correlated exposure after the open.
- TechnicalStrategy.SetStopLoss / TechnicalStrategy.SetTakeProfit: strategies/technical_strategy.py:144 and :152 read `self.data['atr']`, but nothing in the source sets `self.data`, so both methods raise on every call. The model takes the ATR as a parameter and always returns a level.
- TradingBot.ValidateOptionsTrade: accepts every options opportunity (trading_bot.py:131-137), so options opens never pass through `validate_trade` and the 6% total-risk ceiling is not promised for them (`OptionsOpenCanExceedCeiling`). `ValidatedOpenStaysWithinCeiling` states the ceiling for opens whose parameters pass `validate_trade`.
- TradingBot.IdentifyOpportunities reads the technical entry from the entry-points record. The source reads keys that are not in the record; see Findings.
- TradingBot.Stop: the ledger's iteration order is the parameter `order`, which must list every held symbol once. The model makes no claim about which order the source uses.
- Floating-point rounding: `real` arithmetic is exact.

## Findings

| source | as written | input that shows it | evidently intended | confidence | as-written member | corrected member |
|---|---|---|---|---|---|---|
| trading_bot.py:75-80 | `identify_opportunities` reads `signals['entry']` and `signals['strength']`. The technical strategy files the entry under `signals['entry_points']` (strategies/technical_strategy.py:55), so the lookup raises a key error, and the cycle ends at its first symbol with nothing opened and no sweep. | Any payload from `TechnicalStrategy.analyze`, e.g. any non-empty bar series. | Read `signals['entry_points']['entry']` and `signals['entry_points']['strength']`. | high; not executed | TradingBot.IdentifyOpportunitiesAsWritten, TradingBot.IdentifyAsWrittenAlwaysFails, TradingBot.TradingLoopAsWritten | TradingBot.IdentifyOpportunities |
| trading_bot.py:230-235 | `close_position` calls `self.execute_technical_trade` (and `execute_options_trade` for options), which no file defines. The attribute error is caught at trading_bot.py:255-256 before the bookkeeping, so no position is ever closed, and the expectation at tests/test_trading_bot.py:128 fails. | The test's long (entry 50000, stop 48000, size 0.1) swept at a price of 48000. | A defined gateway call whose acknowledgement lets the close remove the position. | high; not executed | TradingBot.StopHitKeptWithoutCloseAck | TradingBot.StopHitIsSwept |

=== FILE: base_strategy.dfy ===
/** Helpers every strategy inherits: fixed-fraction sizing, the risk/reward
    ratio, and a per-strategy position map driven by buy and sell results
    (strategies/base_strategy.py). */
module BaseStrategy {
  import opened Wrappers
  import opened Portfolio

  const BUY: string := "buy"
  const SELL: string := "sell"

  /** Cancels a non-zero common factor. */
  lemma Cancel(x: real, y: real, a: real)
    requires a != 0.0 && x * a == y * a
    ensures x == y
  {
    assert (x - y) * a == 0.0;
  }

  /** Dividing by a non-zero factor and multiplying back gives the original. */
  lemma DivideThenScale(x: real, a: real)
    requires a != 0.0
    ensures (x / a) * a == x
  {
  }

  /** A product of non-negative reals is non-negative. */
  lemma ProductNonNegative(a: real, b: real)
    requires a >= 0.0 && b >= 0.0
    ensures a * b >= 0.0
  {
  }

  /** The amount to commit: a fixed fraction of capital. */
  function CalculatePositionSize(capital: real, riskPerTrade: real): (size: real)
    ensures capital != 0.0 ==> size / capital == riskPerTrade
    ensures capital == 0.0 ==> size == 0.0
    ensures capital >= 0.0 && 0.0 <= riskPerTrade <= 1.0 ==> 0.0 <= size <= capital
  {
    var size := capital * riskPerTrade;
    assert capital != 0.0 ==> size / capital == riskPerTrade by {
      if capital != 0.0 {
        DivideThenScale(size, capital);
        assert size == riskPerTrade * capital;
        Cancel(size / capital, riskPerTrade, capital);
      }
    }
    assert capital >= 0.0 && 0.0 <= riskPerTrade <= 1.0 ==> 0.0 <= size <= capital by {
      if capital >= 0.0 && 0.0 <= riskPerTrade <= 1.0 {
        ProductNonNegative(capital, 1.0 - riskPerTrade);
      }
    }
    size
  }

  /** Reward per unit of risk: the target's distance from the entry over the
      stop's distance, or 0 when the stop sits on the entry. */
  function CalculateRiskReward(entry: real, stopLoss: real, takeProfit: real): (ratio: real)
    ensures ratio >= 0.0
    ensures entry != stopLoss ==> ratio * Abs(entry - stopLoss) == Abs(takeProfit - entry)
    ensures entry == stopLoss ==> ratio == 0.0
  {
    var risk := Abs(entry - stopLoss);
    var reward := Abs(takeProfit - entry);
    if risk != 0.0 then reward / risk else 0.0
  }

  /** A buy stores the result under its symbol (replacing any earlier one), a
      sell drops the symbol if present, and any other action changes nothing. */
  function UpdatePositions<T>(positions: map<string, T>, symbol: string, action: string, tradeResult: T)
    : (r: map<string, T>)
    ensures action == BUY ==> symbol in r && r[symbol] == tradeResult
    ensures action == SELL ==> symbol !in r
    ensures action != BUY && action != SELL ==> r == positions
    ensures forall k | k != symbol :: (k in r <==> k in positions) && (k in r ==> r[k] == positions[k])
  {
    if action == BUY then positions[symbol := tradeResult]
    else if action == SELL then positions - {symbol}
    else positions
  }

  /** The stored trade for a symbol, if any. */
  function GetPositionStatus<T>(positions: map<string, T>, symbol: string): (r: Option<T>)
    ensures r.Some? <==> symbol in positions
    ensures r.Some? ==> r.value == positions[symbol]
  {
    if symbol in positions then Some(positions[symbol]) else None
  }

  /** A buy is visible through the status query, and a sell hides it again;
      other symbols report what they reported before. */
  lemma StatusAfterUpdate<T>(positions: map<string, T>, symbol: string, other: string, tradeResult: T)
    requires other != symbol
    ensures GetPositionStatus(UpdatePositions(positions, symbol, BUY, tradeResult), symbol) == Some(tradeResult)
    ensures GetPositionStatus(UpdatePositions(positions, symbol, SELL, tradeResult), symbol) == None
    ensures GetPositionStatus(UpdatePositions(positions, symbol, BUY, tradeResult), other)
            == GetPositionStatus(positions, other)
    ensures GetPositionStatus(UpdatePositions(positions, symbol, SELL, tradeResult), other)
            == GetPositionStatus(positions, other)
  {
  }

  /** Buying and then selling a symbol that was not held restores the map. */
  lemma BuyThenSellRestores<T>(positions: map<string, T>, symbol: string, tradeResult: T)
    requires symbol !in positions
    ensures UpdatePositions(UpdatePositions(positions, symbol, BUY, tradeResult), symbol, SELL, tradeResult)
            == positions
  {
  }
}

=== FILE: config.dfy ===
/** Process-wide trading limits, read once at start-up and never changed (config.py:17-23). */
module Config {

  /** Largest position size, as a fraction; also the per-asset exposure ceiling. */
  const MAX_POSITION_SIZE: real := 0.2
  /** Base stop-loss distance, as a fraction of the entry price. */
  const STOP_LOSS_PERCENTAGE: real := 0.02
  /** Base take-profit distance, as a fraction of the entry price. */
  const TAKE_PROFIT_PERCENTAGE: real := 0.04
  /** Largest number of simultaneously open trades. */
  const MAX_CONCURRENT_TRADES: nat := 5
}

=== FILE: options_strategy.dfy ===
/** The options strategy: a three-way trend from MACD and Bollinger bands,
    volatility-band gating of the spread categories, and fixed-percentage
    stop and target levels (strategies/options_strategy.py). */
module OptionsStrategy {
  import opened Portfolio
  import opened BaseStrategy

  const BULLISH: string := "bullish"
  const BEARISH: string := "bearish"
  const NEUTRAL: string := "neutral"
  const INCREASING: string := "increasing"
  const DECREASING: string := "decreasing"

  /** Historical volatility band, inclusive at both ends, inside which spreads are sought. */
  const MIN_VOLATILITY: real := 0.15
  const MAX_VOLATILITY: real := 0.45

  /** One bar with the indicator columns the options strategy adds to it. */
  datatype OptionsRow = OptionsRow(
    close: real, rsi: real,
    macd: real, macdSignal: real, macdHist: real,
    bbUpper: real, bbMiddle: real, bbLower: real)

  /** A spread candidate as a spread finder reports it: nothing, or a record of
      named values. Only a non-empty record counts as an opportunity. */
  datatype Candidate = NoSpread | Spread(fields: map<string, real>)

  predicate Truthy(c: Candidate) {
    c.Spread? && |c.fields| > 0
  }

  /** The opportunities record, one list per spread category, in the order the
      bot visits them. */
  datatype OptionsAnalysis = OptionsAnalysis(
    verticalSpreads: seq<Candidate>,
    ironCondors: seq<Candidate>,
    calendarSpreads: seq<Candidate>)

  /** The spread finders, which search an options chain of type `C`; their
      search is outside this model. */
  datatype SpreadFinders<-C> = SpreadFinders(
    bullCallSpreads: C -> seq<Candidate>,
    bearPutSpreads: C -> seq<Candidate>,
    ironCondors: C -> seq<Candidate>,
    calendarSpreads: C -> seq<Candidate>)

  datatype VolatilityReading = VolatilityReading(current: real, trend: string)
  datatype OptionsMomentum = OptionsMomentum(rsi: real, macdHist: real)
  datatype OptionsSignals = OptionsSignals(trend: string, volatility: VolatilityReading, momentum: OptionsMomentum)

  const NoOpportunities: OptionsAnalysis := OptionsAnalysis([], [], [])

  // ---------------------------------------------------------------- trend

  /** Bullish when the MACD is above its signal and the close above the middle
      band, bearish when both are below, neutral otherwise. */
  function DetermineTrend(row: OptionsRow): (trend: string)
    ensures trend == BULLISH <==> row.macd > row.macdSignal && row.close > row.bbMiddle
    ensures trend == BEARISH <==> row.macd < row.macdSignal && row.close < row.bbMiddle
    ensures trend == NEUTRAL <==>
              !(row.macd > row.macdSignal && row.close > row.bbMiddle)
              && !(row.macd < row.macdSignal && row.close < row.bbMiddle)
  {
    if row.macd > row.macdSignal && row.close > row.bbMiddle then BULLISH
    else if row.macd < row.macdSignal && row.close < row.bbMiddle then BEARISH
    else NEUTRAL
  }

  /** The trend is always one of the three labels, and the bullish and bearish
      conditions can never hold together. */
  lemma TrendCasesPartition(row: OptionsRow)
    ensures var t := DetermineTrend(row); t == BULLISH || t == BEARISH || t == NEUTRAL
    ensures !((row.macd > row.macdSignal && row.close > row.bbMiddle)
              && (row.macd < row.macdSignal && row.close < row.bbMiddle))
  {
  }

  // ---------------------------------------------------------------- volatility

  /** Bollinger band width relative to the middle band. */
  function BandWidth(row: OptionsRow): real
    requires row.bbMiddle != 0.0
  {
    (row.bbUpper - row.bbLower) / row.bbMiddle
  }

  /** The last band width, and whether it strictly exceeds the one before;
      equal widths count as decreasing. */
  function AnalyzeVolatility(data: seq<OptionsRow>): (v: VolatilityReading)
    requires |data| >= 2
    requires data[|data| - 1].bbMiddle != 0.0 && data[|data| - 2].bbMiddle != 0.0
    ensures v.current == BandWidth(data[|data| - 1])
    ensures v.trend == INCREASING <==> BandWidth(data[|data| - 1]) > BandWidth(data[|data| - 2])
    ensures v.trend == INCREASING || v.trend == DECREASING
  {
    var current := BandWidth(data[|data| - 1]);
    VolatilityReading(current, if current > BandWidth(data[|data| - 2]) then INCREASING else DECREASING)
  }

  /** The signals of the last bar. */
  function GenerateSignals(data: seq<OptionsRow>): (s: OptionsSignals)
    requires |data| >= 2
    requires data[|data| - 1].bbMiddle != 0.0 && data[|data| - 2].bbMiddle != 0.0
    ensures s.trend == DetermineTrend(data[|data| - 1])
    ensures s.volatility == AnalyzeVolatility(data)
    ensures s.momentum == OptionsMomentum(data[|data| - 1].rsi, data[|data| - 1].macdHist)
  {
    var last := data[|data| - 1];
    OptionsSignals(DetermineTrend(last), AnalyzeVolatility(data), OptionsMomentum(last.rsi, last.macdHist))
  }

  // ---------------------------------------------------------------- opportunities

  predicate InVolatilityBand(historicalVol: real) {
    MIN_VOLATILITY <= historicalVol <= MAX_VOLATILITY
  }

  /** Inside the volatility band, a bullish trend looks for bull call spreads and
      a bearish one for bear put spreads (both filed as vertical spreads), and a
      neutral trend for iron condors and calendar spreads. Outside the band, or
      for any other trend label, all three lists stay empty. */
  function AnalyzeOptionsOpportunities<C>(chain: C, trend: string, historicalVol: real, finders: SpreadFinders<C>)
    : (r: OptionsAnalysis)
    ensures !InVolatilityBand(historicalVol) ==> r == NoOpportunities
    ensures InVolatilityBand(historicalVol) && trend == BULLISH ==>
              r == OptionsAnalysis(finders.bullCallSpreads(chain), [], [])
    ensures InVolatilityBand(historicalVol) && trend == BEARISH ==>
              r == OptionsAnalysis(finders.bearPutSpreads(chain), [], [])
    ensures InVolatilityBand(historicalVol) && trend == NEUTRAL ==>
              r == OptionsAnalysis([], finders.ironCondors(chain), finders.calendarSpreads(chain))
    ensures trend != BULLISH && trend != BEARISH && trend != NEUTRAL ==> r == NoOpportunities
  {
    var vertical: seq<Candidate> := [];
    var condors: seq<Candidate> := [];
    var calendars: seq<Candidate> := [];
    if InVolatilityBand(historicalVol) then
      if trend == BULLISH then OptionsAnalysis(vertical + finders.bullCallSpreads(chain), condors, calendars)
      else if trend == BEARISH then OptionsAnalysis(vertical + finders.bearPutSpreads(chain), condors, calendars)
      else if trend == NEUTRAL then
        OptionsAnalysis(vertical, condors + finders.ironCondors(chain), calendars + finders.calendarSpreads(chain))
      else OptionsAnalysis(vertical, condors, calendars)
    else OptionsAnalysis(vertical, condors, calendars)
  }

  /** Any candidate at all means the volatility was inside the band, and a
      directional spread never appears together with a neutral one. */
  lemma OpportunitiesNeedBandAndExcludeEachOther<C>(
    chain: C, trend: string, historicalVol: real, finders: SpreadFinders<C>)
    ensures var r := AnalyzeOptionsOpportunities(chain, trend, historicalVol, finders);
            (r.verticalSpreads != [] || r.ironCondors != [] || r.calendarSpreads != [] ==> InVolatilityBand(historicalVol))
            && (r.verticalSpreads != [] ==> r.ironCondors == [] && r.calendarSpreads == [] && trend != NEUTRAL)
            && (r.ironCondors != [] || r.calendarSpreads != [] ==> r.verticalSpreads == [] && trend == NEUTRAL)
  {
  }

  /** The payload the options analyzer hands to the bot. */
  function Analyze<C>(data: seq<OptionsRow>, chain: C, historicalVol: real, finders: SpreadFinders<C>)
    : (r: OptionsAnalysis)
    requires |data| >= 2
    requires data[|data| - 1].bbMiddle != 0.0 && data[|data| - 2].bbMiddle != 0.0
    ensures r == AnalyzeOptionsOpportunities(chain, DetermineTrend(data[|data| - 1]), historicalVol, finders)
  {
    AnalyzeOptionsOpportunities(chain, GenerateSignals(data).trend, historicalVol, finders)
  }

  // ---------------------------------------------------------------- levels

  /** A 30% stop: below the entry for a long, above it otherwise. */
  function SetStopLoss(entryPrice: real, direction: string): (stop: real)
    ensures Abs(stop - entryPrice) == 0.3 * Abs(entryPrice)
    ensures entryPrice > 0.0 ==> (stop < entryPrice <==> direction == LONG)
  {
    if direction == LONG then entryPrice * 0.7 else entryPrice * 1.3
  }

  /** A 100% target for a long (double the entry), 50% otherwise (half the entry). */
  function SetTakeProfit(entryPrice: real, direction: string): (target: real)
    ensures direction == LONG ==> Abs(target - entryPrice) == Abs(entryPrice)
    ensures direction != LONG ==> Abs(target - entryPrice) == 0.5 * Abs(entryPrice)
    ensures entryPrice > 0.0 ==> (target > entryPrice <==> direction == LONG)
  {
    if direction == LONG then entryPrice * 2.0 else entryPrice * 0.5
  }

  /** For a non-zero premium the fixed bands give a reward/risk of 10/3 for a
      long and 5/3 otherwise. */
  lemma OptionsRewardRisk(entryPrice: real, direction: string)
    requires entryPrice != 0.0
    ensures CalculateRiskReward(entryPrice, SetStopLoss(entryPrice, direction), SetTakeProfit(entryPrice, direction))
            == if direction == LONG then 10.0 / 3.0 else 5.0 / 3.0
  {
    var stop := SetStopLoss(entryPrice, direction);
    var target := SetTakeProfit(entryPrice, direction);
    var a := Abs(entryPrice);
    var risk := Abs(entryPrice - stop);
    var r := CalculateRiskReward(entryPrice, stop, target);
    assert risk == 0.3 * a && risk != 0.0;
    assert r * risk == Abs(target - entryPrice);
    if direction == LONG {
      assert Abs(target - entryPrice) == a;
      assert (10.0 / 3.0) * risk == a;
      Cancel(r, 10.0 / 3.0, risk);
    } else {
      assert Abs(target - entryPrice) == 0.5 * a;
      assert (5.0 / 3.0) * risk == 0.5 * a;
      Cancel(r, 5.0 / 3.0, risk);
    }
  }
}

=== FILE: portfolio.dfy ===
/** The resolved trade record shared by the bot's `active_trades` and the risk
    manager's `positions`, and sums over symbol-keyed ledgers of such records. */
module Portfolio {

  const LONG: string := "long"

  /** A fully resolved trade: what the bot stores per symbol once a trade is open.
      `kind` is the opportunity type ("technical" or "options") and `direction`
      is compared against "long"; every other direction is treated as short. */
  datatype Trade = Trade(
    symbol: string,
    kind: string,
    direction: string,
    entryPrice: real,
    positionSize: real,
    stopLoss: real,
    takeProfit: real)

  /** A ledger maps a symbol to the trade held for it. */
  type Ledger = map<string, Trade>

  function Abs(x: real): real {
    if x < 0.0 then -x else x
  }

  /** Every entry is filed under its own symbol. */
  ghost predicate KeyedBySymbol(m: Ledger) {
    forall k | k in m :: m[k].symbol == k
  }

  /** The sum of `w` over the trades of a ledger. Maps are unordered, so the
      element taken first is arbitrary; `TotalRemove` shows that the choice does
      not matter. */
  ghost function Total(m: Ledger, w: Trade --> real): real
    requires forall k | k in m :: w.requires(m[k])
    decreases |m|
  {
    if m == map[] then 0.0
    else
      var k :| k in m;
      assert |m - {k}| < |m| by { assert (m - {k}).Keys == m.Keys - {k}; }
      w(m[k]) + Total(m - {k}, w)
  }

  /** Removing any one entry peels off exactly its weight. */
  lemma {:induction false} TotalRemove(m: Ledger, w: Trade --> real, k: string)
    requires forall j | j in m :: w.requires(m[j])
    requires k in m
    ensures Total(m, w) == w(m[k]) + Total(m - {k}, w)
    decreases |m|
  {
    var j :| j in m && Total(m, w) == w(m[j]) + Total(m - {j}, w);
    if j != k {
      assert (m - {k}).Keys == m.Keys - {k};
      assert (m - {j}).Keys == m.Keys - {j};
      TotalRemove(m - {j}, w, k);
      TotalRemove(m - {k}, w, j);
      assert m - {j} - {k} == m - {k} - {j};
    }
  }

  /** Adding an entry under a fresh key adds exactly its weight. */
  lemma TotalInsert(m: Ledger, w: Trade --> real, k: string, t: Trade)
    requires forall j | j in m :: w.requires(m[j])
    requires w.requires(t)
    requires k !in m
    ensures Total(m[k := t], w) == Total(m, w) + w(t)
  {
    TotalRemove(m[k := t], w, k);
    assert m[k := t] - {k} == m;
  }

  /** The total of a two-entry ledger is the sum of the two weights. */
  lemma TotalOfTwo(a: Trade, b: Trade, w: Trade --> real)
    requires a.symbol != b.symbol && w.requires(a) && w.requires(b)
    ensures Total(map[a.symbol := a, b.symbol := b], w) == w(a) + w(b)
  {
    var m := map[a.symbol := a, b.symbol := b];
    TotalRemove(m, w, a.symbol);
    var rest := m - {a.symbol};
    assert rest == map[b.symbol := b];
    TotalRemove(rest, w, b.symbol);
    assert rest - {b.symbol} == map[];
  }

  /** A sum of non-negative weights is non-negative. */
  lemma {:induction false} TotalNonNegative(m: Ledger, w: Trade --> real)
    requires forall k | k in m :: w.requires(m[k]) && w(m[k]) >= 0.0
    ensures Total(m, w) >= 0.0
    decreases |m|
  {
    if m != map[] {
      var k :| k in m;
      assert (m - {k}).Keys == m.Keys - {k};
      TotalRemove(m, w, k);
      TotalNonNegative(m - {k}, w);
    }
  }

  /** Sums `w` over a ledger by visiting its entries one at a time. */
  method SumLedger(m: Ledger, w: Trade --> real) returns (total: real)
    requires forall k | k in m :: w.requires(m[k])
    ensures total == Total(m, w)
  {
    total := 0.0;
    var rest := m;
    while rest != map[]
      invariant rest.Keys <= m.Keys
      invariant forall k | k in rest :: rest[k] == m[k]
      invariant total + Total(rest, w) == Total(m, w)
      decreases |rest|
    {
      var k :| k in rest;
      TotalRemove(rest, w, k);
      assert (rest - {k}).Keys == rest.Keys - {k};
      total := total + w(rest[k]);
      rest := rest - {k};
    }
  }
}

=== FILE: risk_management.dfy ===
/** The risk manager: position sizing, volatility-adaptive stop-loss and
    take-profit levels, the three-step trade validation, and the
    `positions` / `total_risk` ledger it keeps (risk_management.py). */
module RiskManagement {
  import opened Portfolio
  import opened Config

  /** Fraction of capital risked by one trade. */
  const MAX_RISK_PER_TRADE: real := 0.02
  /** Ceiling on the summed risk of all open positions. */
  const MAX_TOTAL_RISK: real := 0.06
  /** Strict ceiling on the summed size of positions sharing a base asset. */
  const MAX_CORRELATED_EXPOSURE: real := 0.15
  /** Volatility above which a market counts as highly volatile (strict). */
  const HIGH_VOLATILITY: real := 0.3
  /** Volatility below which a market counts as calm (strict). */
  const LOW_VOLATILITY: real := 0.1

  /** The risk manager's own state: the open positions by symbol and the running
      total of their trade risks. */
  datatype RiskState = RiskState(positions: Ledger, totalRisk: real)

  /** A ledger update as issued by the bot: open a resolved trade, or close a symbol. */
  datatype PositionUpdate = Open(trade: Trade) | Close(symbol: string)

  const Empty: RiskState := RiskState(map[], 0.0)

  function Min(a: real, b: real): real {
    if a <= b then a else b
  }

  // ---------------------------------------------------------------- sizing

  /** Size a position so that a move from entry to stop loses at most 2% of
      capital, damped by 0.7 in high volatility, and never above 20% of capital.
      The source divides by the stop distance, so a stop equal to the entry is
      excluded. */
  function PositionSize(capital: real, entryPrice: real, stopLoss: real, volatility: real): (size: real)
    requires entryPrice != stopLoss
    ensures size <= capital * MAX_POSITION_SIZE
    ensures capital > 0.0 ==> size > 0.0
    ensures capital >= 0.0 ==> size * Abs(entryPrice - stopLoss) <= capital * MAX_RISK_PER_TRADE
    ensures capital >= 0.0 && volatility > HIGH_VOLATILITY ==>
              size * Abs(entryPrice - stopLoss) <= capital * MAX_RISK_PER_TRADE * 0.7
    ensures size == capital * MAX_POSITION_SIZE
            || size * Abs(entryPrice - stopLoss)
               == capital * MAX_RISK_PER_TRADE * (if volatility > HIGH_VOLATILITY then 0.7 else 1.0)
  {
    var riskAmount := capital * MAX_RISK_PER_TRADE;
    var priceRisk := Abs(entryPrice - stopLoss);
    var raw := riskAmount / priceRisk;
    var damped := if volatility > HIGH_VOLATILITY then raw * 0.7 else raw;
    assert damped * priceRisk == riskAmount * (if volatility > HIGH_VOLATILITY then 0.7 else 1.0);
    var size := Min(damped, capital * MAX_POSITION_SIZE);
    assert capital >= 0.0 ==> size * priceRisk <= damped * priceRisk;
    size
  }

  /** Higher volatility never yields a larger position. */
  lemma PositionSizeDampedByVolatility(capital: real, entryPrice: real, stopLoss: real, calm: real, wild: real)
    requires entryPrice != stopLoss
    requires capital >= 0.0
    requires calm <= wild
    ensures PositionSize(capital, entryPrice, stopLoss, wild) <= PositionSize(capital, entryPrice, stopLoss, calm)
  {
    var d := Abs(entryPrice - stopLoss);
    var raw := capital * MAX_RISK_PER_TRADE / d;
    assert raw >= 0.0;
    assert raw * 0.7 <= raw;
  }

  /** The sizing example of the test suite: capital 100000, entry 50000, stop 48000. */
  lemma PositionSizeExample()
    ensures PositionSize(100000.0, 50000.0, 48000.0, 0.2) == 1.0
  {
    assert 100000.0 * MAX_RISK_PER_TRADE / Abs(50000.0 - 48000.0) == 1.0;
  }

  // ---------------------------------------------------------------- risk

  /** Fraction of the position lost if the stop is hit: the stop distance
      relative to the entry price, times the size. */
  function TradeRisk(t: Trade): (risk: real)
    requires t.entryPrice != 0.0
    ensures t.positionSize >= 0.0 ==> risk >= 0.0
    ensures risk * Abs(t.entryPrice) == Abs(t.entryPrice - t.stopLoss) * t.positionSize
  {
    var q := (t.entryPrice - t.stopLoss) / t.entryPrice;
    assert Abs(q) * Abs(t.entryPrice) == Abs(t.entryPrice - t.stopLoss);
    Abs(q) * t.positionSize
  }

  // ---------------------------------------------------------------- correlation

  /** The base asset of a symbol: the text before its first '/', or the whole
      symbol if it has none ("BTC/USDT" gives "BTC"). */
  function BaseAsset(symbol: string): (base: string)
    ensures |base| <= |symbol| && base == symbol[..|base|]
    ensures '/' !in base
    ensures |base| < |symbol| ==> symbol[|base|] == '/'
  {
    if |symbol| == 0 || symbol[0] == '/' then ""
    else [symbol[0]] + BaseAsset(symbol[1..])
  }

  /** Two symbols are treated as correlated when they share a base asset. */
  predicate AreCorrelated(symbol1: string, symbol2: string) {
    BaseAsset(symbol1) == BaseAsset(symbol2)
  }

  /** Sharing a base asset is an equivalence: in particular a symbol is always
      correlated with itself. */
  lemma CorrelationIsEquivalence(a: string, b: string, c: string)
    ensures AreCorrelated(a, a)
    ensures AreCorrelated(a, b) <==> AreCorrelated(b, a)
    ensures AreCorrelated(a, b) && AreCorrelated(b, c) ==> AreCorrelated(a, c)
  {
  }

  /** The base asset is exactly the text up to the first '/'. */
  lemma BaseAssetUpToSlash(symbol: string, i: nat)
    requires i < |symbol| && symbol[i] == '/' && '/' !in symbol[..i]
    ensures BaseAsset(symbol) == symbol[..i]
  {
  }

  /** A symbol without '/' is its own base asset. */
  lemma {:induction false} BaseAssetOfPlainSymbol(symbol: string)
    requires '/' !in symbol
    ensures BaseAsset(symbol) == symbol
  {
    if |symbol| > 0 {
      assert '/' !in symbol[1..] by {
        forall i | 0 <= i < |symbol[1..]| ensures symbol[1..][i] != '/' { assert symbol[1..][i] == symbol[i + 1]; }
      }
      BaseAssetOfPlainSymbol(symbol[1..]);
      assert symbol == [symbol[0]] + symbol[1..];
    }
  }

  /** Pairs "base/quote" are correlated exactly when their bases are equal,
      whatever they are quoted in; a symbol without '/' counts as its own base. */
  lemma CorrelatedExactlyWhenBasesMatch(base1: string, quote1: string, base2: string, quote2: string)
    requires '/' !in base1 && '/' !in base2
    ensures AreCorrelated(base1 + "/" + quote1, base2 + "/" + quote2) <==> base1 == base2
    ensures AreCorrelated(base1 + "/" + quote1, base2) <==> base1 == base2
  {
    var s1, s2 := base1 + "/" + quote1, base2 + "/" + quote2;
    assert s1[..|base1|] == base1;
    assert s2[..|base2|] == base2;
    BaseAssetUpToSlash(s1, |base1|);
    BaseAssetUpToSlash(s2, |base2|);
    BaseAssetOfPlainSymbol(base2);
  }

  /** The bitcoin pairs quoted in dollars, tether and euros share a base asset. */
  lemma BitcoinPairsCorrelated()
    ensures AreCorrelated("BTC/USD", "BTC/USDT") && AreCorrelated("BTC/USD", "BTC/EUR")
  {
    BaseAssetUpToSlash("BTC/USD", 3);
    BaseAssetUpToSlash("BTC/USDT", 3);
    BaseAssetUpToSlash("BTC/EUR", 3);
  }

  /** Pairs quoted in different currencies on the same base are correlated;
      different bases are not. */
  lemma CorrelationExamples()
    ensures AreCorrelated("BTC/USDT", "BTC/EUR")
    ensures !AreCorrelated("BTC/USDT", "ETH/USDT")
  {
    BaseAssetUpToSlash("BTC/USDT", 3);
    BaseAssetUpToSlash("BTC/EUR", 3);
    BaseAssetUpToSlash("ETH/USDT", 3);
  }

  /** The size a position contributes to a candidate's correlated exposure. */
  function CorrelatedSize(candidate: string): Trade -> real {
    (t: Trade) => if AreCorrelated(candidate, t.symbol) then t.positionSize else 0.0
  }

  /** The size a position contributes to a candidate's same-symbol exposure. */
  function SameSymbolSize(candidate: string): Trade -> real {
    (t: Trade) => if t.symbol == candidate then t.positionSize else 0.0
  }

  /** Sums the sizes of the given positions that share the candidate's base
      asset. The candidate's own size is not part of the sum. */
  method CheckPositionCorrelation(newTrade: Trade, currentPositions: Ledger) returns (ok: bool)
    ensures ok <==> Total(currentPositions, CorrelatedSize(newTrade.symbol)) < MAX_CORRELATED_EXPOSURE
  {
    var exposure := SumLedger(currentPositions, CorrelatedSize(newTrade.symbol));
    ok := exposure < MAX_CORRELATED_EXPOSURE;
  }

  /** Adds the candidate's size to the sizes of the manager's OWN positions in
      the same symbol and compares the raw sum with 0.2; the portfolio value is
      accepted but not used. */
  method CheckMaxExposure(st: RiskState, trade: Trade, portfolioValue: real) returns (ok: bool)
    ensures ok <==> trade.positionSize + Total(st.positions, SameSymbolSize(trade.symbol)) <= MAX_POSITION_SIZE
  {
    var existing := SumLedger(st.positions, SameSymbolSize(trade.symbol));
    ok := trade.positionSize + existing <= MAX_POSITION_SIZE;
  }

  /** The three limits a trade must meet to be accepted. */
  ghost predicate WithinLimits(st: RiskState, trade: Trade, currentPositions: Ledger)
    requires trade.entryPrice != 0.0
  {
    && st.totalRisk + TradeRisk(trade) <= MAX_TOTAL_RISK
    && Total(currentPositions, CorrelatedSize(trade.symbol)) < MAX_CORRELATED_EXPOSURE
    && trade.positionSize + Total(st.positions, SameSymbolSize(trade.symbol)) <= MAX_POSITION_SIZE
  }

  /** Accepts a trade exactly when the aggregate-risk, correlation and exposure
      checks all pass, checked in that order; the state is not changed. */
  method ValidateTrade(st: RiskState, trade: Trade, portfolioValue: real, currentPositions: Ledger)
    returns (ok: bool)
    requires trade.entryPrice != 0.0
    ensures ok <==> WithinLimits(st, trade, currentPositions)
  {
    if st.totalRisk + TradeRisk(trade) > MAX_TOTAL_RISK {
      return false;
    }
    var correlationOk := CheckPositionCorrelation(trade, currentPositions);
    if !correlationOk {
      return false;
    }
    ok := CheckMaxExposure(st, trade, portfolioValue);
  }

  /** The validation example of the test suite: a 0.1 BTC trade from 50000
      with its stop at 48000 risks 0.004 and is accepted by a fresh manager. */
  lemma ValidateTradeExample()
    ensures var t := Trade("BTC/USDT", "technical", LONG, 50000.0, 0.1, 48000.0, 53000.0);
            TradeRisk(t) == 0.004 && WithinLimits(Empty, t, map[])
  {
    var t := Trade("BTC/USDT", "technical", LONG, 50000.0, 0.1, 48000.0, 53000.0);
    assert TradeRisk(t) * 50000.0 == 2000.0 * 0.1;
  }

  /** The correlation check ignores the candidate's own size: existing BTC
      positions of 0.12 in total still admit another BTC candidate of 0.05,
      although together they would hold 0.17. */
  lemma CorrelationIgnoresCandidateSize()
    ensures var held := map["BTC/USDT" := Trade("BTC/USDT", "technical", LONG, 100.0, 0.07, 98.0, 104.0),
                            "BTC/EUR" := Trade("BTC/EUR", "technical", LONG, 100.0, 0.05, 98.0, 104.0)];
            Total(held, CorrelatedSize("BTC/USD")) == 0.12 < MAX_CORRELATED_EXPOSURE
  {
    var a := Trade("BTC/USDT", "technical", LONG, 100.0, 0.07, 98.0, 104.0);
    var b := Trade("BTC/EUR", "technical", LONG, 100.0, 0.05, 98.0, 104.0);
    BitcoinPairsCorrelated();
    var w := CorrelatedSize("BTC/USD");
    assert w(a) == 0.07 && w(b) == 0.05;
    TotalOfTwo(a, b, w);
  }

  // ---------------------------------------------------------------- levels

  /** Stop distance as a fraction of the entry price, by volatility regime. */
  function StopDistance(volatility: real): real {
    if volatility > HIGH_VOLATILITY then 0.03
    else if volatility < LOW_VOLATILITY then 0.016
    else 0.02
  }

  /** Target distance as a fraction of the entry price, by volatility regime. */
  function TargetDistance(volatility: real): real {
    if volatility > HIGH_VOLATILITY then 0.052
    else if volatility < LOW_VOLATILITY then 0.036
    else 0.04
  }

  /** The base 2% stop widened by half in high volatility and narrowed by a fifth
      in calm markets, placed below the entry for a long and above otherwise. */
  function CalculateStopLoss(entryPrice: real, direction: string, volatility: real): (stop: real)
    ensures Abs(stop - entryPrice) == Abs(entryPrice) * StopDistance(volatility)
    ensures entryPrice > 0.0 && direction == LONG ==> stop < entryPrice
    ensures entryPrice > 0.0 && direction != LONG ==> stop > entryPrice
  {
    var baseStop :=
      if volatility > HIGH_VOLATILITY then STOP_LOSS_PERCENTAGE * 1.5
      else if volatility < LOW_VOLATILITY then STOP_LOSS_PERCENTAGE * 0.8
      else STOP_LOSS_PERCENTAGE;
    if direction == LONG then entryPrice * (1.0 - baseStop) else entryPrice * (1.0 + baseStop)
  }

  /** The base 4% target raised by 30% in high volatility and lowered by 10% in
      calm markets, placed above the entry for a long and below otherwise. */
  function CalculateTakeProfit(entryPrice: real, direction: string, volatility: real): (target: real)
    ensures Abs(target - entryPrice) == Abs(entryPrice) * TargetDistance(volatility)
    ensures entryPrice > 0.0 && direction == LONG ==> target > entryPrice
    ensures entryPrice > 0.0 && direction != LONG ==> target < entryPrice
  {
    var baseTarget :=
      if volatility > HIGH_VOLATILITY then TAKE_PROFIT_PERCENTAGE * 1.3
      else if volatility < LOW_VOLATILITY then TAKE_PROFIT_PERCENTAGE * 0.9
      else TAKE_PROFIT_PERCENTAGE;
    if direction == LONG then entryPrice * (1.0 + baseTarget) else entryPrice * (1.0 - baseTarget)
  }

  /** Both distances grow with volatility. */
  lemma DistancesGrowWithVolatility(calm: real, wild: real)
    requires calm <= wild
    ensures StopDistance(calm) <= StopDistance(wild)
    ensures TargetDistance(calm) <= TargetDistance(wild)
  {
  }

  /** For a positive entry the stop and the target lie on opposite sides of it:
      stop < entry < target for a long, target < entry < stop otherwise. */
  lemma LevelsBracketEntry(entryPrice: real, direction: string, volatility: real)
    requires entryPrice > 0.0
    ensures var stop := CalculateStopLoss(entryPrice, direction, volatility);
            var target := CalculateTakeProfit(entryPrice, direction, volatility);
            if direction == LONG then stop < entryPrice < target else target < entryPrice < stop
  {
  }

  /** Entry 100, long, volatility 0.35 stops at 97; entry 100, short,
      volatility 0.05 takes profit at 96.4. */
  lemma LevelExamples()
    ensures CalculateStopLoss(100.0, LONG, 0.35) == 97.0
    ensures CalculateTakeProfit(100.0, "short", 0.05) == 96.4
  {
  }

  // ---------------------------------------------------------------- ledger

  /** Every stored position has a non-zero entry, so its trade risk is defined. */
  predicate Priced(m: Ledger) {
    forall k | k in m :: m[k].entryPrice != 0.0
  }

  /** The running total equals the sum of the trade risks of the positions. */
  ghost predicate Consistent(st: RiskState) {
    Priced(st.positions) && st.totalRisk == Total(st.positions, TradeRisk)
  }

  lemma EmptyIsConsistent()
    ensures Consistent(Empty)
  {
  }

  /** Applies an open or a close. An open stores the trade under its symbol,
      replacing any earlier entry without taking back that entry's risk, and adds
      the new trade's risk. A close of a held symbol takes back its risk and drops
      it; a close of a symbol not held changes nothing. */
  function UpdatePosition(st: RiskState, u: PositionUpdate): (r: RiskState)
    requires Priced(st.positions)
    requires u.Open? ==> u.trade.entryPrice != 0.0
    ensures Priced(r.positions)
    ensures u.Open? ==> r.positions.Keys == st.positions.Keys + {u.trade.symbol}
                        && r.positions[u.trade.symbol] == u.trade
                        && r.totalRisk - st.totalRisk == TradeRisk(u.trade)
    ensures u.Close? && u.symbol in st.positions ==>
              r.positions.Keys == st.positions.Keys - {u.symbol}
              && st.totalRisk - r.totalRisk == TradeRisk(st.positions[u.symbol])
    ensures u.Close? && u.symbol !in st.positions ==> r == st
    ensures forall k | k != (if u.Open? then u.trade.symbol else u.symbol) ::
              (k in r.positions <==> k in st.positions)
              && (k in r.positions ==> r.positions[k] == st.positions[k])
  {
    match u
    case Open(t) =>
      RiskState(st.positions[t.symbol := t], st.totalRisk + TradeRisk(t))
    case Close(symbol) =>
      if symbol in st.positions then
        RiskState(st.positions - {symbol}, st.totalRisk - TradeRisk(st.positions[symbol]))
      else st
  }

  /** Opening a symbol not already held, and closing any symbol, keep the running
      total equal to the sum of the positions' risks. */
  lemma UpdatePreservesConsistency(st: RiskState, u: PositionUpdate)
    requires Consistent(st)
    requires u.Open? ==> u.trade.entryPrice != 0.0 && u.trade.symbol !in st.positions
    ensures Consistent(UpdatePosition(st, u))
  {
    match u
    case Open(t) =>
      TotalInsert(st.positions, TradeRisk, t.symbol, t);
    case Close(symbol) =>
      if symbol in st.positions {
        TotalRemove(st.positions, TradeRisk, symbol);
      }
  }

  /** Opening a symbol that is already held breaks the invariant: the first
      trade's risk stays in the running total although its entry is gone. */
  lemma ReopenDriftsRisk()
    ensures var t := Trade("BTC/USDT", "technical", LONG, 100.0, 1.0, 98.0, 104.0);
            var st := UpdatePosition(UpdatePosition(Empty, Open(t)), Open(t));
            st.totalRisk == 0.04 && Total(st.positions, TradeRisk) == 0.02
  {
    var t := Trade("BTC/USDT", "technical", LONG, 100.0, 1.0, 98.0, 104.0);
    var st := UpdatePosition(UpdatePosition(Empty, Open(t)), Open(t));
    assert TradeRisk(t) == 0.02;
    assert st.positions == map["BTC/USDT" := t];
    TotalRemove(st.positions, TradeRisk, "BTC/USDT");
    assert st.positions - {"BTC/USDT"} == map[];
  }

  /** An accepted trade on a symbol not yet held keeps the total risk within
      the 6% ceiling once it is opened. */
  lemma AcceptedOpenStaysWithinCeiling(st: RiskState, t: Trade, currentPositions: Ledger)
    requires Consistent(st)
    requires t.entryPrice != 0.0 && t.symbol !in st.positions
    requires WithinLimits(st, t, currentPositions)
    ensures Consistent(UpdatePosition(st, Open(t)))
    ensures Total(UpdatePosition(st, Open(t)).positions, TradeRisk) <= MAX_TOTAL_RISK
  {
    UpdatePreservesConsistency(st, Open(t));
  }

  // ---------------------------------------------------------------- stats

  datatype PortfolioStats = PortfolioStats(
    totalPositions: nat, totalRisk: real, riskCapacity: real, positions: Ledger)

  /** The risk report: number of positions, total risk, the room left under
      the 6% ceiling, and the positions themselves. */
  function GetPortfolioStats(st: RiskState): (s: PortfolioStats)
    ensures s.totalPositions == |st.positions| && s.positions == st.positions
    ensures s.totalRisk == st.totalRisk
    ensures s.totalRisk + s.riskCapacity == MAX_TOTAL_RISK
  {
    PortfolioStats(|st.positions|, st.totalRisk, MAX_TOTAL_RISK - st.totalRisk, st.positions)
  }

  /** With no negative position sizes, a consistent running total is never
      negative, so the reported capacity never exceeds the ceiling. */
  lemma ConsistentRiskNonNegative(st: RiskState)
    requires Consistent(st)
    requires forall k | k in st.positions :: st.positions[k].positionSize >= 0.0
    ensures st.totalRisk >= 0.0
    ensures GetPortfolioStats(st).riskCapacity <= MAX_TOTAL_RISK
  {
    TotalNonNegative(st.positions, TradeRisk);
  }

  /** In a consistent state the reported capacity is the ceiling minus the
      summed risk of the positions, and it is never negative after an accepted
      open. */
  lemma StatsReportRemainingCapacity(st: RiskState, t: Trade, currentPositions: Ledger)
    requires Consistent(st)
    requires t.entryPrice != 0.0 && t.symbol !in st.positions
    requires WithinLimits(st, t, currentPositions)
    ensures GetPortfolioStats(st).riskCapacity == MAX_TOTAL_RISK - Total(st.positions, TradeRisk)
    ensures var after := GetPortfolioStats(UpdatePosition(st, Open(t)));
            after.riskCapacity >= 0.0 && after.totalPositions == |st.positions| + 1
  {
    var after := UpdatePosition(st, Open(t));
    assert after.positions.Keys == st.positions.Keys + {t.symbol};
    assert |after.positions.Keys| == |st.positions.Keys| + 1;
  }
}

=== FILE: technical_strategy.dfy ===
/** The technical strategy's signal rules, stated over the indicator values of
    the last bar (and the recent ATR window) rather than over computed series
    (strategies/technical_strategy.py). */
module TechnicalStrategy {
  import opened Wrappers
  import opened Portfolio
  import opened BaseStrategy

  const BULLISH: string := "bullish"
  const BEARISH: string := "bearish"
  const OVERSOLD: string := "oversold"
  const OVERBOUGHT: string := "overbought"
  const NEUTRAL: string := "neutral"
  const INCREASING: string := "increasing"
  const DECREASING: string := "decreasing"
  const LOW: string := "low"
  const MEDIUM: string := "medium"
  const HIGH: string := "high"
  const NONE: string := "none"
  const SHORT: string := "short"
  const STRONG: string := "strong"
  const WEAK: string := "weak"

  const RSI_OVERSOLD: real := 30.0
  const RSI_OVERBOUGHT: real := 70.0

  /** One bar with the indicator columns the strategy adds to it. */
  datatype IndicatorRow = IndicatorRow(
    high: real, low: real, close: real,
    rsi: real, emaShort: real, emaLong: real,
    macd: real, macdSignal: real, macdHist: real,
    atr: real)

  /** A value of the trend record: a vote label or a number. */
  datatype TrendValue = Label(name: string) | Number(value: real)

  datatype Trend = Trend(emaTrend: string, macdTrend: string, strength: real, overall: string)
  datatype Momentum = Momentum(rsi: real, rsiSignal: string, macdHistogram: real)
  datatype Volatility = Volatility(currentAtr: real, atrTrend: string, volatilityLevel: string)
  datatype Pivots = Pivots(pivot: real, resistance1: real, support1: real)
  datatype EntrySignal = EntrySignal(entry: string, strength: string)
  datatype Signals = Signals(
    trend: Trend, momentum: Momentum, volatility: Volatility,
    supportResistance: Pivots, entryPoints: EntrySignal)
  datatype TechnicalAnalysis = TechnicalAnalysis(symbol: string, timeframe: string, signals: Signals)

  /** A value of the signal dictionary the strategy hands out: one variant per
      entry of `Signals`. */
  datatype SignalField =
    | TrendField(trend: Trend)
    | MomentumField(momentum: Momentum)
    | VolatilityField(volatility: Volatility)
    | PivotsField(pivots: Pivots)
    | EntryPointsField(entryPoints: EntrySignal)

  /** The signals as the dictionary the strategy builds, entry by entry under
      its key. */
  function SignalDict(s: Signals): map<string, SignalField> {
    map["trend" := TrendField(s.trend),
        "momentum" := MomentumField(s.momentum),
        "volatility" := VolatilityField(s.volatility),
        "support_resistance" := PivotsField(s.supportResistance),
        "entry_points" := EntryPointsField(s.entryPoints)]
  }

  /** Reads the five entries back; None when one is missing or holds a value of
      another kind. */
  function SignalsFromDict(d: map<string, SignalField>): Option<Signals> {
    if && "trend" in d && d["trend"].TrendField?
       && "momentum" in d && d["momentum"].MomentumField?
       && "volatility" in d && d["volatility"].VolatilityField?
       && "support_resistance" in d && d["support_resistance"].PivotsField?
       && "entry_points" in d && d["entry_points"].EntryPointsField?
    then Some(Signals(d["trend"].trend, d["momentum"].momentum, d["volatility"].volatility,
                      d["support_resistance"].pivots, d["entry_points"].entryPoints))
    else None
  }

  /** The dictionary carries every signal: reading it back gives the record. */
  lemma SignalDictRoundTrip(s: Signals)
    ensures SignalsFromDict(SignalDict(s)) == Some(s)
  {
  }

  /** The dictionary has exactly five keys, and neither "entry" nor "strength"
      is among them: the entry signal sits one level down, under "entry_points". */
  lemma SignalDictKeys(s: Signals)
    ensures |SignalDict(s)| == 5
    ensures "entry" !in SignalDict(s) && "strength" !in SignalDict(s)
    ensures SignalDict(s)["entry_points"] == EntryPointsField(s.entryPoints)
  {
    assert "entry" != "trend" by { assert "entry"[0] != "trend"[0]; }
    assert "strength" != "momentum" by { assert "strength"[0] != "momentum"[0]; }
  }

  // ---------------------------------------------------------------- trend

  /** How many values of the record are the label "bullish". */
  function CountBullish(values: seq<TrendValue>): (n: nat)
    ensures n <= |values|
    ensures n == 0 <==> forall i | 0 <= i < |values| :: values[i] != Label(BULLISH)
    ensures n == multiset(values)[Label(BULLISH)]
  {
    if |values| == 0 then 0
    else
      assert values == [values[0]] + values[1..];
      (if values[0] == Label(BULLISH) then 1 else 0) + CountBullish(values[1..])
  }

  /** The EMA and MACD each vote bullish or bearish; the record also holds the
      numeric MACD strength, which counts towards the record's size but never as
      a vote, so the overall trend is bullish only when both votes are. */
  function AnalyzeTrend(row: IndicatorRow): (t: Trend)
    ensures t.emaTrend == (if row.emaShort > row.emaLong then BULLISH else BEARISH)
    ensures t.macdTrend == (if row.macd > row.macdSignal then BULLISH else BEARISH)
    ensures t.overall == BULLISH <==> row.emaShort > row.emaLong && row.macd > row.macdSignal
    ensures t.overall == BULLISH || t.overall == BEARISH
    ensures t.strength >= 0.0 && t.strength == Abs(row.macd - row.macdSignal)
  {
    var emaTrend := if row.emaShort > row.emaLong then BULLISH else BEARISH;
    var macdTrend := if row.macd > row.macdSignal then BULLISH else BEARISH;
    var strength := Abs(row.macd - row.macdSignal);
    var values := [Label(emaTrend), Label(macdTrend), Number(strength)];
    assert values[1..] == [Label(macdTrend), Number(strength)];
    assert values[1..][1..] == [Number(strength)];
    assert CountBullish(values[1..][1..]) == 0 by { assert values[1..][1..][1..] == []; }
    assert CountBullish(values[1..]) == if macdTrend == BULLISH then 1 else 0;
    var votes := CountBullish(values);
    assert votes == (if emaTrend == BULLISH then 1 else 0) + (if macdTrend == BULLISH then 1 else 0);
    Trend(emaTrend, macdTrend, strength,
          if votes as real > |values| as real / 2.0 then BULLISH else BEARISH)
  }

  // ---------------------------------------------------------------- momentum

  /** RSI below 30 is oversold, above 70 overbought; 30 and 70 themselves are neutral. */
  function AnalyzeMomentum(row: IndicatorRow): (m: Momentum)
    ensures m.rsi == row.rsi && m.macdHistogram == row.macdHist
    ensures m.rsiSignal == OVERSOLD <==> row.rsi < RSI_OVERSOLD
    ensures m.rsiSignal == OVERBOUGHT <==> row.rsi > RSI_OVERBOUGHT
    ensures m.rsiSignal == NEUTRAL <==> RSI_OVERSOLD <= row.rsi <= RSI_OVERBOUGHT
  {
    Momentum(row.rsi,
             if row.rsi < RSI_OVERSOLD then OVERSOLD
             else if row.rsi > RSI_OVERBOUGHT then OVERBOUGHT
             else NEUTRAL,
             row.macdHist)
  }

  // ---------------------------------------------------------------- volatility

  /** Every later value is at least every earlier one. */
  ghost predicate NonDecreasing(s: seq<real>) {
    forall i, j | 0 <= i < j < |s| :: s[i] <= s[j]
  }

  /** Every later value is at most every earlier one. */
  ghost predicate NonIncreasing(s: seq<real>) {
    forall i, j | 0 <= i < j < |s| :: s[i] >= s[j]
  }

  /** Checks neighbours only, which decides the all-pairs order. */
  function IsMonotonicIncreasing(s: seq<real>): (b: bool)
    ensures b <==> NonDecreasing(s)
  {
    if |s| <= 1 then true
    else
      var rest := IsMonotonicIncreasing(s[1..]);
      assert rest ==> forall j | 1 <= j < |s| :: s[1] <= s[j] by {
        if rest {
          forall j | 1 < j < |s| ensures s[1] <= s[j] { assert s[1..][0] <= s[1..][j - 1]; }
        }
      }
      assert !rest ==> !NonDecreasing(s) by {
        if !rest {
          var i, j :| 0 <= i < j < |s| - 1 && s[1..][i] > s[1..][j];
          assert s[i + 1] > s[j + 1];
        }
      }
      s[0] <= s[1] && rest
  }

  /** Checks neighbours only, which decides the all-pairs order. */
  function IsMonotonicDecreasing(s: seq<real>): (b: bool)
    ensures b <==> NonIncreasing(s)
  {
    if |s| <= 1 then true
    else
      var rest := IsMonotonicDecreasing(s[1..]);
      assert rest ==> forall j | 1 <= j < |s| :: s[1] >= s[j] by {
        if rest {
          forall j | 1 < j < |s| ensures s[1] >= s[j] { assert s[1..][0] >= s[1..][j - 1]; }
        }
      }
      assert !rest ==> !NonIncreasing(s) by {
        if !rest {
          var i, j :| 0 <= i < j < |s| - 1 && s[1..][i] < s[1..][j];
          assert s[i + 1] < s[j + 1];
        }
      }
      s[0] >= s[1] && rest
  }

  /** The last five ATR values, or all of them when there are fewer. */
  function RecentWindow(atr: seq<real>): (w: seq<real>)
    ensures |w| == if |atr| < 5 then |atr| else 5
    ensures w == atr[|atr| - |w|..]
  {
    if |atr| < 5 then atr else atr[|atr| - 5..]
  }

  /** Below 0.5 is low, below 1.5 medium, anything else high. */
  function CategorizeVolatility(atr: real): (level: string)
    ensures level == LOW <==> atr < 0.5
    ensures level == MEDIUM <==> 0.5 <= atr < 1.5
    ensures level == HIGH <==> atr >= 1.5
  {
    if atr < 0.5 then LOW
    else if atr < 1.5 then MEDIUM
    else HIGH
  }

  /** The volatility levels in increasing order. */
  function LevelRank(level: string): nat {
    if level == LOW then 0 else if level == MEDIUM then 1 else 2
  }

  /** A larger ATR never gives a lower volatility level. */
  lemma CategorizeVolatilityMonotone(a: real, b: real)
    requires a <= b
    ensures LevelRank(CategorizeVolatility(a)) <= LevelRank(CategorizeVolatility(b))
  {
  }

  /** The ATR trend over the recent window: increasing is tested first, so a
      flat window is increasing; then decreasing; otherwise neutral. The source
      reads the last ATR value, so the series must not be empty. */
  function AnalyzeVolatility(atr: seq<real>): (v: Volatility)
    requires |atr| > 0
    ensures v.currentAtr == atr[|atr| - 1]
    ensures v.atrTrend == INCREASING <==> NonDecreasing(RecentWindow(atr))
    ensures v.atrTrend == DECREASING <==> !NonDecreasing(RecentWindow(atr)) && NonIncreasing(RecentWindow(atr))
    ensures v.atrTrend == NEUTRAL <==> !NonDecreasing(RecentWindow(atr)) && !NonIncreasing(RecentWindow(atr))
    ensures v.volatilityLevel == CategorizeVolatility(atr[|atr| - 1])
  {
    var recent := RecentWindow(atr);
    Volatility(
      atr[|atr| - 1],
      if IsMonotonicIncreasing(recent) then INCREASING
      else if IsMonotonicDecreasing(recent) then DECREASING
      else NEUTRAL,
      CategorizeVolatility(atr[|atr| - 1]))
  }

  /** A flat ATR window counts as increasing, never as decreasing. */
  lemma FlatWindowIsIncreasing(atr: seq<real>)
    requires |atr| > 0
    requires forall i | 0 <= i < |atr| :: atr[i] == atr[0]
    ensures AnalyzeVolatility(atr).atrTrend == INCREASING
  {
    var w := RecentWindow(atr);
    assert forall i | 0 <= i < |w| :: w[i] == atr[|atr| - |w| + i];
  }

  // ---------------------------------------------------------------- pivots

  /** Classic pivot points of the last bar: the pivot is the mean of high, low
      and close, and the first resistance and support mirror the low and the
      high about it. */
  function FindSupportResistance(row: IndicatorRow): (p: Pivots)
    ensures 3.0 * p.pivot == row.high + row.low + row.close
    ensures p.resistance1 - p.pivot == p.pivot - row.low
    ensures p.pivot - p.support1 == row.high - p.pivot
    ensures p.resistance1 - p.support1 == row.high - row.low
    ensures row.low <= row.close <= row.high ==> p.support1 <= p.pivot <= p.resistance1
  {
    var pivot := (row.high + row.low + row.close) / 3.0;
    Pivots(pivot, 2.0 * pivot - row.low, 2.0 * pivot - row.high)
  }

  // ---------------------------------------------------------------- entry

  /** A long entry needs both trend votes bullish and the RSI outside [30, 70];
      the "short" branch of the source can never be taken, because the trend
      condition already requires the short EMA above the long one. */
  function FindEntryPoints(row: IndicatorRow): (e: EntrySignal)
    ensures e.entry == LONG <==>
              row.emaShort > row.emaLong && row.macd > row.macdSignal
              && (row.rsi < RSI_OVERSOLD || row.rsi > RSI_OVERBOUGHT)
    ensures e.entry == LONG || e.entry == NONE
    ensures e.strength == STRONG <==> e.entry != NONE
    ensures e.strength == STRONG || e.strength == WEAK
  {
    var trendConfirmed := row.emaShort > row.emaLong && row.macd > row.macdSignal;
    var momentumConfirmed := row.rsi < RSI_OVERSOLD || row.rsi > RSI_OVERBOUGHT;
    if trendConfirmed && momentumConfirmed then
      EntrySignal(if row.emaShort > row.emaLong then LONG else SHORT, STRONG)
    else
      EntrySignal(NONE, WEAK)
  }

  /** All signals of the last bar; the ATR window is the ATR column of the bars. */
  function GenerateSignals(data: seq<IndicatorRow>): (s: Signals)
    requires |data| > 0
    ensures s.trend == AnalyzeTrend(data[|data| - 1])
    ensures s.entryPoints == FindEntryPoints(data[|data| - 1])
    ensures s.momentum == AnalyzeMomentum(data[|data| - 1])
    ensures s.supportResistance == FindSupportResistance(data[|data| - 1])
    ensures s.volatility == AnalyzeVolatility(AtrColumn(data))
    ensures s.volatility.currentAtr == data[|data| - 1].atr
  {
    var last := data[|data| - 1];
    var atr := AtrColumn(data);
    var volatility := AnalyzeVolatility(atr);
    assert volatility.currentAtr == last.atr;
    Signals(AnalyzeTrend(last), AnalyzeMomentum(last), volatility,
            FindSupportResistance(last), FindEntryPoints(last))
  }

  /** The ATR column of the bars. */
  function AtrColumn(data: seq<IndicatorRow>): (atr: seq<real>)
    ensures |atr| == |data|
    ensures forall i | 0 <= i < |data| :: atr[i] == data[i].atr
  {
    seq(|data|, i requires 0 <= i < |data| => data[i].atr)
  }

  /** The analysis payload handed to the bot. */
  function Analyze(symbol: string, timeframe: string, data: seq<IndicatorRow>): (a: TechnicalAnalysis)
    requires |data| > 0
    ensures a.symbol == symbol && a.timeframe == timeframe
    ensures a.signals == GenerateSignals(data)
  {
    TechnicalAnalysis(symbol, timeframe, GenerateSignals(data))
  }

  /** An entry signal always comes with a bullish overall trend, yet the trend
      is spelled "bullish"/"bearish" and the entry "long"/"none", so the two
      never compare equal. */
  lemma EntryAndTrendVocabulariesDiffer(data: seq<IndicatorRow>)
    requires |data| > 0
    ensures var s := GenerateSignals(data);
            (s.entryPoints.entry != NONE ==> s.trend.overall == BULLISH)
            && s.trend.overall != s.entryPoints.entry
  {
  }

  // ---------------------------------------------------------------- levels

  /** The stop two ATRs from the entry: below for a long, above otherwise. */
  function SetStopLoss(entryPrice: real, direction: string, atr: real): (stop: real)
    ensures Abs(stop - entryPrice) == 2.0 * Abs(atr)
    ensures atr > 0.0 ==> (stop < entryPrice <==> direction == LONG)
  {
    if direction == LONG then entryPrice - 2.0 * atr else entryPrice + 2.0 * atr
  }

  /** The target three ATRs from the entry: above for a long, below otherwise. */
  function SetTakeProfit(entryPrice: real, direction: string, atr: real): (target: real)
    ensures Abs(target - entryPrice) == 3.0 * Abs(atr)
    ensures atr > 0.0 ==> (target > entryPrice <==> direction == LONG)
  {
    if direction == LONG then entryPrice + 3.0 * atr else entryPrice - 3.0 * atr
  }

  /** With a non-zero ATR the target is one and a half times as far from the
      entry as the stop, whatever the direction. */
  lemma TechnicalRewardRisk(entryPrice: real, direction: string, atr: real)
    requires atr != 0.0
    ensures CalculateRiskReward(entryPrice, SetStopLoss(entryPrice, direction, atr),
                                SetTakeProfit(entryPrice, direction, atr)) == 1.5
  {
    var stop := SetStopLoss(entryPrice, direction, atr);
    var target := SetTakeProfit(entryPrice, direction, atr);
    var a := Abs(atr);
    assert Abs(entryPrice - stop) == 2.0 * a && Abs(target - entryPrice) == 3.0 * a;
    assert entryPrice != stop;
    var r := CalculateRiskReward(entryPrice, stop, target);
    var d := Abs(entryPrice - stop);
    assert r * d == 3.0 * a;
    assert d == 2.0 * a;
    assert r * d == r * (2.0 * a);
    assert 1.5 * (2.0 * a) == 3.0 * a;
    Cancel(r, 1.5, 2.0 * a);
  }
}

=== FILE: trading_bot.dfy ===
/** The bot: turning analysis payloads into opportunities, validating them,
    the `active_trades` ledger kept in step with the risk manager, exit and
    P&L arithmetic, one trading cycle with its concurrency cap, and shutdown
    (trading_bot.py). */
module TradingBot {
  import opened Wrappers
  import opened Config
  import opened Portfolio
  import opened RiskManagement
  import TS = TechnicalStrategy
  import OS = OptionsStrategy

  const TECHNICAL: string := "technical"
  const OPTIONS: string := "options"
  const VERTICAL_SPREADS: string := "vertical_spreads"
  const IRON_CONDORS: string := "iron_condors"
  const CALENDAR_SPREADS: string := "calendar_spreads"

  /** A candidate trade. A technical opportunity carries the entry direction and
      strength and the technical payload; an options opportunity carries the
      spread category and the candidate. `Unrecognised` stands for a record of
      any other type. */
  datatype Opportunity =
    | TechnicalOpportunity(symbol: string, direction: string, strength: string, analysis: TS.TechnicalAnalysis)
    | OptionsOpportunity(symbol: string, strategy: string, candidate: OS.Candidate)
    | Unrecognised(symbol: string, kind: string)

  /** The bot's state: open trades by symbol, the risk manager it owns, the
      portfolio value used in validation, and the run flag. */
  datatype Bot = Bot(active: Ledger, risk: RiskState, portfolioValue: real, running: bool)

  const NewBot: Bot := Bot(map[], Empty, 0.0, false)

  /** The bot's ledger and the risk manager's ledger hold the same trades, each
      filed under its own symbol, and the risk total matches them. */
  ghost predicate Inv(bot: Bot) {
    && KeyedBySymbol(bot.active)
    && bot.risk.positions == bot.active
    && Consistent(bot.risk)
  }

  lemma NewBotSatisfiesInv()
    ensures Inv(NewBot)
  {
  }

  /** Starting sets the run flag and the portfolio value and nothing else. */
  function Start(bot: Bot, initialPortfolioValue: real): (r: Bot)
    ensures r.running && r.portfolioValue == initialPortfolioValue
    ensures r.active == bot.active && r.risk == bot.risk
  {
    bot.(running := true, portfolioValue := initialPortfolioValue)
  }

  // ---------------------------------------------------------------- opportunities

  /** `r` is `s` with some elements left out and the others kept in order. */
  ghost predicate InOrderWithin<T>(r: seq<T>, s: seq<T>)
    decreases |s|
  {
    if |r| == 0 then true
    else if |s| == 0 then false
    else (r[0] == s[0] && InOrderWithin(r[1..], s[1..])) || InOrderWithin(r, s[1..])
  }

  /** The candidates a finder reported that count as opportunities, in order
      (`TruthiesExact`). */
  function Truthies(cands: seq<OS.Candidate>): (r: seq<OS.Candidate>)
    ensures |r| <= |cands|
    ensures forall i | 0 <= i < |r| :: OS.Truthy(r[i]) && r[i] in cands
    ensures forall c | c in cands && OS.Truthy(c) :: c in r
  {
    if |cands| == 0 then []
    else if OS.Truthy(cands[0]) then [cands[0]] + Truthies(cands[1..])
    else Truthies(cands[1..])
  }

  /** The kept candidates are every truthy candidate, as often as it was
      reported, and nothing else, in the order of the report. */
  lemma {:induction false} TruthiesExact(cands: seq<OS.Candidate>)
    ensures forall c :: multiset(Truthies(cands))[c] == if OS.Truthy(c) then multiset(cands)[c] else 0
    ensures InOrderWithin(Truthies(cands), cands)
  {
    if |cands| > 0 {
      TruthiesExact(cands[1..]);
      assert cands == [cands[0]] + cands[1..];
      var rest := Truthies(cands[1..]);
      if OS.Truthy(cands[0]) {
        assert Truthies(cands)[1..] == rest;
      }
    }
  }

  /** `os` lists one options opportunity per truthy candidate, in order, all
      tagged with the category and the symbol. */
  ghost predicate Tagged(os: seq<Opportunity>, category: string, symbol: string, cands: seq<OS.Candidate>) {
    && |os| == |Truthies(cands)|
    && forall i | 0 <= i < |os| :: os[i] == OptionsOpportunity(symbol, category, Truthies(cands)[i])
  }

  /** One options opportunity for each truthy candidate of a category. */
  function OptionsFrom(category: string, symbol: string, cands: seq<OS.Candidate>): (os: seq<Opportunity>)
    ensures Tagged(os, category, symbol, cands)
    ensures forall i | 0 <= i < |os| :: os[i].OptionsOpportunity? && os[i].symbol == symbol
  {
    if |cands| == 0 then []
    else
      var rest := OptionsFrom(category, symbol, cands[1..]);
      if OS.Truthy(cands[0]) then
        var os := [OptionsOpportunity(symbol, category, cands[0])] + rest;
        assert Truthies(cands) == [cands[0]] + Truthies(cands[1..]);
        assert forall i | 1 <= i < |os| :: os[i] == rest[i - 1];
        os
      else
        assert Truthies(cands) == Truthies(cands[1..]);
        rest
  }

  /** The options part of the opportunity list: vertical spreads, then iron
      condors, then calendar spreads. */
  function OptionsOpportunities(symbol: string, options: OS.OptionsAnalysis): (os: seq<Opportunity>)
    ensures var nv := |Truthies(options.verticalSpreads)|;
            var ni := |Truthies(options.ironCondors)|;
            && |os| == nv + ni + |Truthies(options.calendarSpreads)|
            && Tagged(os[..nv], VERTICAL_SPREADS, symbol, options.verticalSpreads)
            && Tagged(os[nv..nv + ni], IRON_CONDORS, symbol, options.ironCondors)
            && Tagged(os[nv + ni..], CALENDAR_SPREADS, symbol, options.calendarSpreads)
    ensures forall i | 0 <= i < |os| :: os[i].OptionsOpportunity? && os[i].symbol == symbol
  {
    var v := OptionsFrom(VERTICAL_SPREADS, symbol, options.verticalSpreads);
    var ic := OptionsFrom(IRON_CONDORS, symbol, options.ironCondors);
    var cal := OptionsFrom(CALENDAR_SPREADS, symbol, options.calendarSpreads);
    assert (v + ic + cal)[..|v|] == v;
    assert (v + ic + cal)[|v|..|v| + |ic|] == ic;
    assert (v + ic + cal)[|v| + |ic|..] == cal;
    v + ic + cal
  }

  /** A technical opportunity first, when the entry signal is not "none", then
      the options opportunities category by category (vertical spreads, iron
      condors, calendar spreads), each in list order, all under the technical
      payload's symbol. */
  function IdentifyOpportunities(technical: TS.TechnicalAnalysis, options: OS.OptionsAnalysis)
    : (r: seq<Opportunity>)
    ensures var entry := technical.signals.entryPoints;
            var k := if entry.entry != TS.NONE then 1 else 0;
            && |r| == k + |OptionsOpportunities(technical.symbol, options)|
            && (entry.entry != TS.NONE ==> r[0] == TechnicalOpportunity(technical.symbol, entry.entry, entry.strength, technical))
            && r[k..] == OptionsOpportunities(technical.symbol, options)
    ensures forall i | 0 <= i < |r| :: r[i].symbol == technical.symbol && !r[i].Unrecognised?
    ensures forall i | 0 <= i < |r| :: r[i].TechnicalOpportunity? <==> i == 0 && technical.signals.entryPoints.entry != TS.NONE
  {
    var entry := technical.signals.entryPoints;
    var os := OptionsOpportunities(technical.symbol, options);
    if entry.entry != TS.NONE then
      var r := [TechnicalOpportunity(technical.symbol, entry.entry, entry.strength, technical)] + os;
      assert r[1..] == os;
      r
    else os
  }

  /** The opportunity list as the bot's code reads it: "entry" is looked up
      directly in the signal dictionary, raising a key error (None here) when it
      is missing. A value found there is a signal record, never the string
      "none", so the code goes on to look up "strength", which raises in turn
      when missing. With both keys present the list would be the one
      `IdentifyOpportunities` builds. */
  function IdentifyOpportunitiesAsWritten(technical: TS.TechnicalAnalysis, options: OS.OptionsAnalysis)
    : (r: Option<seq<Opportunity>>)
    ensures r.None? <==> "entry" !in TS.SignalDict(technical.signals) || "strength" !in TS.SignalDict(technical.signals)
    ensures r.Some? ==> r.value == IdentifyOpportunities(technical, options)
  {
    var signals := TS.SignalDict(technical.signals);
    if "entry" !in signals then None
    else if "strength" !in signals then None
    else Some(IdentifyOpportunities(technical, options))
  }

  /** As written, the lookup raises for every technical payload, because the
      strategy files the entry signal under "entry_points". */
  lemma IdentifyAsWrittenAlwaysFails(technical: TS.TechnicalAnalysis, options: OS.OptionsAnalysis)
    ensures IdentifyOpportunitiesAsWritten(technical, options).None?
  {
    TS.SignalDictKeys(technical.signals);
  }

  /** The number of opportunities is one for a live entry signal plus one per
      truthy candidate. */
  lemma OpportunityCount(technical: TS.TechnicalAnalysis, options: OS.OptionsAnalysis)
    ensures |IdentifyOpportunities(technical, options)|
            == (if technical.signals.entryPoints.entry != TS.NONE then 1 else 0)
               + |Truthies(options.verticalSpreads)| + |Truthies(options.ironCondors)|
               + |Truthies(options.calendarSpreads)|
  {
  }

  // ---------------------------------------------------------------- validation

  /** The pre-risk checks of a technical opportunity: a strong signal whose
      direction equals the trend's overall label. */
  predicate TechnicalGate(strength: string, direction: string, analysis: TS.TechnicalAnalysis) {
    strength == TS.STRONG && analysis.signals.trend.overall == direction
  }

  /** A technical opportunity needs a strong signal and a trend label equal to
      its direction; then the risk manager decides, against the bot's open
      trades. */
  method ValidateTechnicalTrade(bot: Bot, strength: string, direction: string, analysis: TS.TechnicalAnalysis,
                                params: Trade)
    returns (ok: bool)
    requires params.entryPrice != 0.0
    ensures ok <==> TechnicalGate(strength, direction, analysis) && WithinLimits(bot.risk, params, bot.active)
  {
    if strength != TS.STRONG {
      return false;
    }
    if analysis.signals.trend.overall != direction {
      return false;
    }
    ok := ValidateTrade(bot.risk, params, bot.portfolioValue, bot.active);
  }

  /** Options opportunities pass without further checks. */
  function ValidateOptionsTrade(opp: Opportunity): (ok: bool)
    requires opp.OptionsOpportunity?
    ensures ok
  {
    true
  }

  /** One position per symbol: a symbol already traded is refused; otherwise the
      opportunity's type decides, and an unrecognised type is refused.
      `params` are the resolved trade parameters, which only the technical path
      reads. */
  method ValidateOpportunity(bot: Bot, opp: Opportunity, params: Trade) returns (ok: bool)
    requires opp.TechnicalOpportunity? ==> params.entryPrice != 0.0
    ensures ok ==> opp.symbol !in bot.active
    ensures opp.Unrecognised? ==> !ok
    ensures opp.OptionsOpportunity? ==> (ok <==> opp.symbol !in bot.active)
    ensures opp.TechnicalOpportunity? ==>
              (ok <==> opp.symbol !in bot.active
                       && TechnicalGate(opp.strength, opp.direction, opp.analysis)
                       && WithinLimits(bot.risk, params, bot.active))
  {
    if opp.symbol in bot.active {
      return false;
    }
    match opp
    case TechnicalOpportunity(_, direction, strength, analysis) =>
      ok := ValidateTechnicalTrade(bot, strength, direction, analysis, params);
    case OptionsOpportunity(_, _, _) =>
      ok := ValidateOptionsTrade(opp);
    case Unrecognised(_, _) =>
      ok := false;
  }

  /** A technical opportunity built from the technical strategy's own signals
      is never accepted: its direction is "long" while the trend label is
      "bullish" or "bearish". */
  lemma TechnicalOpportunitiesNeverPassGate(symbol: string, timeframe: string, data: seq<TS.IndicatorRow>,
                                            options: OS.OptionsAnalysis, i: nat)
    requires |data| > 0
    requires var r := IdentifyOpportunities(TS.Analyze(symbol, timeframe, data), options);
             i < |r| && r[i].TechnicalOpportunity?
    ensures var o := IdentifyOpportunities(TS.Analyze(symbol, timeframe, data), options)[i];
            !TechnicalGate(o.strength, o.direction, o.analysis)
  {
    TS.EntryAndTrendVocabulariesDiffer(data);
  }

  // ---------------------------------------------------------------- open and close

  /** Only technical and options trades go through the gateway; for any other
      type there is no gateway call and the bookkeeping goes ahead. */
  predicate Acknowledged(kind: string, gatewayOk: bool) {
    if kind == TECHNICAL || kind == OPTIONS then gatewayOk else true
  }

  function KindOf(opp: Opportunity): string {
    match opp
    case TechnicalOpportunity(_, _, _, _) => TECHNICAL
    case OptionsOpportunity(_, _, _) => OPTIONS
    case Unrecognised(_, kind) => kind
  }

  /** When the gateway acknowledges the open, the trade is recorded in the bot's
      ledger and opened in the risk manager; when it fails, nothing changes. */
  function ExecuteTrade(bot: Bot, opp: Opportunity, params: Trade, gatewayOk: bool): (r: Bot)
    requires Priced(bot.risk.positions)
    requires params.entryPrice != 0.0
    ensures Acknowledged(KindOf(opp), gatewayOk) ==>
              r.active == bot.active[params.symbol := params]
              && r.risk == UpdatePosition(bot.risk, Open(params))
    ensures !Acknowledged(KindOf(opp), gatewayOk) ==> r == bot
    ensures r.portfolioValue == bot.portfolioValue && r.running == bot.running
  {
    if Acknowledged(KindOf(opp), gatewayOk) then
      bot.(active := bot.active[params.symbol := params], risk := UpdatePosition(bot.risk, Open(params)))
    else bot
  }

  /** Opening a symbol not yet held keeps both ledgers equal and the risk total
      exact, and adds exactly that symbol. */
  lemma ExecutePreservesInv(bot: Bot, opp: Opportunity, params: Trade, gatewayOk: bool)
    requires Inv(bot)
    requires params.entryPrice != 0.0 && params.symbol !in bot.active
    ensures Inv(ExecuteTrade(bot, opp, params, gatewayOk))
    ensures ExecuteTrade(bot, opp, params, gatewayOk).active.Keys
            == bot.active.Keys + (if Acknowledged(KindOf(opp), gatewayOk) then {params.symbol} else {})
  {
    if Acknowledged(KindOf(opp), gatewayOk) {
      UpdatePreservesConsistency(bot.risk, Open(params));
    }
  }

  /** When the gateway acknowledges the close, the symbol leaves both ledgers;
      when it fails, the position stays open in both. */
  function ClosePosition(bot: Bot, position: Trade, gatewayOk: bool): (r: Bot)
    requires Priced(bot.risk.positions)
    requires position.symbol in bot.active
    ensures Acknowledged(position.kind, gatewayOk) ==>
              r.active == bot.active - {position.symbol}
              && r.risk == UpdatePosition(bot.risk, Close(position.symbol))
    ensures !Acknowledged(position.kind, gatewayOk) ==> r == bot
    ensures r.portfolioValue == bot.portfolioValue && r.running == bot.running
  {
    if Acknowledged(position.kind, gatewayOk) then
      bot.(active := bot.active - {position.symbol}, risk := UpdatePosition(bot.risk, Close(position.symbol)))
    else bot
  }

  /** Closing keeps both ledgers equal and the risk total exact, and removes
      exactly the closed symbol. */
  lemma ClosePreservesInv(bot: Bot, position: Trade, gatewayOk: bool)
    requires Inv(bot)
    requires position.symbol in bot.active
    ensures Inv(ClosePosition(bot, position, gatewayOk))
    ensures ClosePosition(bot, position, gatewayOk).active.Keys
            == bot.active.Keys - (if Acknowledged(position.kind, gatewayOk) then {position.symbol} else {})
  {
    if Acknowledged(position.kind, gatewayOk) {
      UpdatePreservesConsistency(bot.risk, Close(position.symbol));
    }
  }

  // ---------------------------------------------------------------- exit and P&L

  /** A long closes at or below its stop or at or above its target; any other
      direction closes at or above its stop or at or below its target. */
  function CheckExitConditions(position: Trade, currentPrice: real): (exit: bool)
    ensures position.direction == LONG ==>
              (exit <==> currentPrice <= position.stopLoss || currentPrice >= position.takeProfit)
    ensures position.direction != LONG ==>
              (exit <==> currentPrice >= position.stopLoss || currentPrice <= position.takeProfit)
  {
    if position.direction == LONG then
      currentPrice <= position.stopLoss || currentPrice >= position.takeProfit
    else
      currentPrice >= position.stopLoss || currentPrice <= position.takeProfit
  }

  /** Profit of closing at `exitPrice`: gains when the price moved the trade's
      way (up for a long, down otherwise), scaled by the size. */
  function CalculatePnl(position: Trade, exitPrice: real): (pnl: real)
    ensures position.positionSize > 0.0 && position.direction == LONG ==>
              (pnl > 0.0 <==> exitPrice > position.entryPrice)
    ensures position.positionSize > 0.0 && position.direction != LONG ==>
              (pnl > 0.0 <==> exitPrice < position.entryPrice)
    ensures exitPrice == position.entryPrice ==> pnl == 0.0
  {
    if position.direction == LONG then (exitPrice - position.entryPrice) * position.positionSize
    else (position.entryPrice - exitPrice) * position.positionSize
  }

  /** The long and the short P&L of the same move are negations of each other. */
  lemma PnlLongShortOpposite(position: Trade, exitPrice: real, otherDirection: string)
    requires otherDirection != LONG
    ensures CalculatePnl(position.(direction := LONG), exitPrice)
            == -CalculatePnl(position.(direction := otherDirection), exitPrice)
  {
  }

  /** Entry 50000, size 0.1, long, closed at 52000: a profit of 200. */
  lemma PnlExample()
    ensures CalculatePnl(Trade("BTC/USDT", TECHNICAL, LONG, 50000.0, 0.1, 48000.0, 53000.0), 52000.0) == 200.0
  {
  }

  /** The position-management example of the test suite: a long from 50000 with
      its stop at 48000 is closed by the sweep once the price is 48000, provided
      the gateway acknowledges the close. */
  lemma StopHitIsSwept(m: Market)
    requires m.price("BTC/USDT") == Some(48000.0) && m.closeAck("BTC/USDT")
    ensures SweepCloses(Trade("BTC/USDT", TECHNICAL, LONG, 50000.0, 0.1, 48000.0, 53000.0), m)
  {
  }

  /** The same example with the close unacknowledged, which is what the source's
      undefined `execute_technical_trade` amounts to: the stop is hit, yet the
      sweep keeps the position. */
  lemma StopHitKeptWithoutCloseAck(m: Market)
    requires m.price("BTC/USDT") == Some(48000.0) && !m.closeAck("BTC/USDT")
    ensures var t := Trade("BTC/USDT", TECHNICAL, LONG, 50000.0, 0.1, 48000.0, 53000.0);
            CheckExitConditions(t, 48000.0) && !SweepCloses(t, m)
  {
  }

  /** Stop on the losing side and target on the winning side of the entry. */
  predicate Bracketed(t: Trade) {
    if t.direction == LONG then t.stopLoss < t.entryPrice < t.takeProfit
    else t.takeProfit < t.entryPrice < t.stopLoss
  }

  /** For a bracketed position the exit rule fires exactly when the P&L has
      reached the loss at the stop or the gain at the target, and the entry
      price itself never triggers an exit. */
  lemma ExitMeansStopOrTargetReached(position: Trade, price: real)
    requires Bracketed(position) && position.positionSize > 0.0
    ensures CalculatePnl(position, position.stopLoss) < 0.0 < CalculatePnl(position, position.takeProfit)
    ensures CheckExitConditions(position, price) <==>
              CalculatePnl(position, price) <= CalculatePnl(position, position.stopLoss)
              || CalculatePnl(position, price) >= CalculatePnl(position, position.takeProfit)
    ensures !CheckExitConditions(position, position.entryPrice)
  {
    PnlOrder(position, price, position.stopLoss);
    PnlOrder(position, position.takeProfit, price);
    PnlOrder(position, position.stopLoss, position.entryPrice);
    PnlOrder(position, position.entryPrice, position.takeProfit);
  }

  /** For a positive size the P&L orders exit prices upwards for a long and
      downwards otherwise. */
  lemma PnlOrder(position: Trade, a: real, b: real)
    requires position.positionSize > 0.0
    ensures position.direction == LONG ==>
              (CalculatePnl(position, a) <= CalculatePnl(position, b) <==> a <= b)
              && (CalculatePnl(position, a) < CalculatePnl(position, b) <==> a < b)
    ensures position.direction != LONG ==>
              (CalculatePnl(position, a) <= CalculatePnl(position, b) <==> a >= b)
              && (CalculatePnl(position, a) < CalculatePnl(position, b) <==> a > b)
  {
    var e, size := position.entryPrice, position.positionSize;
    MovesScale(a, b, e, size);
    if position.direction == LONG {
      assert CalculatePnl(position, b) - CalculatePnl(position, a) == (b - a) * size;
      SignOfScaled(b - a, size);
    } else {
      assert CalculatePnl(position, b) - CalculatePnl(position, a) == (a - b) * size;
      SignOfScaled(a - b, size);
    }
  }

  /** The difference of two moves from the same entry, scaled alike. */
  lemma MovesScale(a: real, b: real, e: real, s: real)
    ensures (b - e) * s - (a - e) * s == (b - a) * s
    ensures (e - b) * s - (e - a) * s == (a - b) * s
  {
  }

  /** A positive factor keeps the sign. */
  lemma SignOfScaled(x: real, s: real)
    requires s > 0.0
    ensures x * s > 0.0 <==> x > 0.0
    ensures x * s >= 0.0 <==> x >= 0.0
  {
  }

  // ---------------------------------------------------------------- one cycle

  /** What the outside world answers during a cycle: the resolved trade
      parameters of an opportunity, the gateway's verdict on opening it, the
      last price of a symbol (None when the feed fails), and the gateway's
      verdict on closing a symbol. */
  datatype Market = Market(
    resolve: Opportunity -> Trade,
    openAck: Opportunity -> bool,
    price: string -> Option<real>,
    closeAck: string -> bool)

  /** Resolved parameters keep the opportunity's symbol and type and have a
      non-zero entry. */
  ghost predicate Resolves(m: Market) {
    forall o: Opportunity ::
      m.resolve(o).symbol == o.symbol && m.resolve(o).kind == KindOf(o) && m.resolve(o).entryPrice != 0.0
  }

  /** The input of one symbol's turn: its two analysis payloads and the market. */
  datatype SymbolStep = SymbolStep(technical: TS.TechnicalAnalysis, options: OS.OptionsAnalysis, market: Market)

  /** A held position is closed by the sweep when its price is available, its
      exit condition holds and the gateway acknowledges. */
  predicate SweepCloses(position: Trade, m: Market) {
    && m.price(position.symbol).Some?
    && CheckExitConditions(position, m.price(position.symbol).value)
    && Acknowledged(position.kind, m.closeAck(position.symbol))
  }

  /** Checks every open position once and closes those whose exit condition
      holds; a failed price fetch or a failed close leaves the position open. */
  method ManagePositions(bot: Bot, m: Market) returns (b: Bot)
    requires Inv(bot)
    ensures Inv(b)
    ensures forall k :: k in b.active <==> k in bot.active && !SweepCloses(bot.active[k], m)
    ensures forall k | k in b.active :: b.active[k] == bot.active[k]
    ensures b.portfolioValue == bot.portfolioValue && b.running == bot.running
  {
    b := bot;
    var pending := bot.active.Keys;
    while pending != {}
      invariant Inv(b)
      invariant pending <= bot.active.Keys
      invariant forall k | k in pending :: k in b.active
      invariant forall k :: k in b.active ==> k in bot.active && b.active[k] == bot.active[k]
      invariant forall k | k in bot.active && k !in pending :: k in b.active <==> !SweepCloses(bot.active[k], m)
      invariant b.portfolioValue == bot.portfolioValue && b.running == bot.running
      decreases pending
    {
      var symbol :| symbol in pending;
      var position := b.active[symbol];
      var quote := m.price(symbol);
      if quote.Some? && CheckExitConditions(position, quote.value) {
        ClosePreservesInv(b, position, m.closeAck(symbol));
        b := ClosePosition(b, position, m.closeAck(symbol));
      }
      pending := pending - {symbol};
    }
  }

  /** An opportunity on a free symbol that validates against `bot` and whose
      open the gateway acknowledges. */
  ghost predicate Opens(bot: Bot, o: Opportunity, m: Market) {
    && o.symbol !in bot.active
    && (|| o.OptionsOpportunity?
        || (&& o.TechnicalOpportunity?
            && TechnicalGate(o.strength, o.direction, o.analysis)
            && m.resolve(o).entryPrice != 0.0
            && WithinLimits(bot.risk, m.resolve(o), bot.active)))
    && Acknowledged(KindOf(o), m.openAck(o))
  }

  /** Tries the symbol's opportunities in order, opening each one that
      validates; after the first open the symbol is held and the rest are
      refused. So the symbol ends up held exactly when some opportunity opens
      against the starting state, and a held symbol changes nothing. */
  method ProcessOpportunities(bot: Bot, opportunities: seq<Opportunity>, symbol: string, m: Market)
    returns (b: Bot)
    requires Inv(bot) && Resolves(m)
    requires forall i | 0 <= i < |opportunities| :: opportunities[i].symbol == symbol
    ensures Inv(b)
    ensures b.active.Keys <= bot.active.Keys + {symbol}
    ensures forall k | k in bot.active :: k in b.active && b.active[k] == bot.active[k]
    ensures b.portfolioValue == bot.portfolioValue && b.running == bot.running
    ensures symbol in bot.active ==> b == bot
    ensures symbol !in bot.active ==>
              (symbol in b.active <==> exists j | 0 <= j < |opportunities| :: Opens(bot, opportunities[j], m))
  {
    b := bot;
    for i := 0 to |opportunities|
      invariant Inv(b)
      invariant b.active.Keys <= bot.active.Keys + {symbol}
      invariant forall k | k in bot.active :: k in b.active && b.active[k] == bot.active[k]
      invariant b.portfolioValue == bot.portfolioValue && b.running == bot.running
      invariant symbol in bot.active ==> b == bot
      invariant symbol !in b.active ==> b == bot
      invariant symbol !in bot.active ==>
                  (symbol in b.active <==> exists j | 0 <= j < i :: Opens(bot, opportunities[j], m))
    {
      var opp := opportunities[i];
      var params := m.resolve(opp);
      var ok := ValidateOpportunity(b, opp, params);
      if ok {
        ExecutePreservesInv(b, opp, params, m.openAck(opp));
        b := ExecuteTrade(b, opp, params, m.openAck(opp));
      }
    }
  }

  /** One symbol's turn: aggregate its opportunities, open what validates, then
      sweep all open positions. */
  method ProcessSymbol(bot: Bot, step: SymbolStep) returns (b: Bot)
    requires Inv(bot) && Resolves(step.market)
    ensures Inv(b)
    ensures forall k | k in bot.active :: (k in b.active <==> !SweepCloses(bot.active[k], step.market))
    ensures var opportunities := IdentifyOpportunities(step.technical, step.options);
            step.technical.symbol !in bot.active && step.technical.symbol in b.active ==>
              exists j | 0 <= j < |opportunities| :: Opens(bot, opportunities[j], step.market)
    ensures b.active.Keys <= bot.active.Keys + {step.technical.symbol}
    ensures |bot.active| < MAX_CONCURRENT_TRADES ==> |b.active| <= MAX_CONCURRENT_TRADES
    ensures forall k | k in b.active && k in bot.active :: b.active[k] == bot.active[k]
    ensures b.portfolioValue == bot.portfolioValue && b.running == bot.running
  {
    var opportunities := IdentifyOpportunities(step.technical, step.options);
    b := ProcessOpportunities(bot, opportunities, step.technical.symbol, step.market);
    b := ManagePositions(b, step.market);
    if |bot.active| < MAX_CONCURRENT_TRADES {
      TurnStaysWithinCap(bot.active, b.active, step.technical.symbol);
    }
  }

  lemma SubsetCardinality<T>(a: set<T>, b: set<T>)
    requires a <= b
    ensures |a| <= |b|
  {
    if a != {} {
      var x :| x in a;
      SubsetCardinality(a - {x}, b - {x});
    }
  }

  /** A turn that starts under the cap and adds at most its own symbol ends
      within the cap. */
  lemma TurnStaysWithinCap(before: Ledger, after: Ledger, symbol: string)
    requires |before| < MAX_CONCURRENT_TRADES
    requires after.Keys <= before.Keys + {symbol}
    ensures |after| <= MAX_CONCURRENT_TRADES
  {
    SubsetCardinality(after.Keys, before.Keys + {symbol});
    assert |before.Keys + {symbol}| <= |before.Keys| + 1;
  }

  function Max(a: nat, b: nat): nat {
    if a >= b then a else b
  }

  /** The symbols a cycle may open positions for. */
  ghost function StepSymbols(steps: seq<SymbolStep>): set<string> {
    set i | 0 <= i < |steps| :: steps[i].technical.symbol
  }

  /** One cycle over the configured symbols. Before each symbol's turn the cap
      is checked, and once five trades are open the cycle stops, skipping the
      position sweep as well. */
  method TradingLoop(bot: Bot, steps: seq<SymbolStep>) returns (b: Bot)
    requires Inv(bot)
    requires forall i | 0 <= i < |steps| :: Resolves(steps[i].market)
    ensures Inv(b)
    ensures |bot.active| >= MAX_CONCURRENT_TRADES ==> b == bot
    ensures |b.active| <= Max(|bot.active|, MAX_CONCURRENT_TRADES)
    ensures b.active.Keys <= bot.active.Keys + StepSymbols(steps)
    ensures b.portfolioValue == bot.portfolioValue && b.running == bot.running
  {
    b := bot;
    var i := 0;
    ghost var visited: set<string> := {};
    while i < |steps| && |b.active| < MAX_CONCURRENT_TRADES
      invariant i <= |steps|
      invariant Inv(b)
      invariant i == 0 ==> b == bot
      invariant |bot.active| >= MAX_CONCURRENT_TRADES ==> i == 0
      invariant |b.active| <= |bot.active| || |b.active| <= MAX_CONCURRENT_TRADES
      invariant visited <= StepSymbols(steps)
      invariant b.active.Keys <= bot.active.Keys + visited
      invariant b.portfolioValue == bot.portfolioValue && b.running == bot.running
    {
      b := ProcessSymbol(b, steps[i]);
      visited := visited + {steps[i].technical.symbol};
      i := i + 1;
    }
    assert |b.active| <= Max(|bot.active|, MAX_CONCURRENT_TRADES);
  }

  /** One cycle with the entry lookup as the bot's code writes it. The first
      symbol's lookup raises, which ends the cycle before anything is opened or
      swept; `raised` reports that the error left the cycle. */
  method TradingLoopAsWritten(bot: Bot, steps: seq<SymbolStep>) returns (b: Bot, raised: bool)
    requires Inv(bot)
    requires forall i | 0 <= i < |steps| :: Resolves(steps[i].market)
    ensures Inv(b)
    ensures raised <==> |steps| > 0 && |bot.active| < MAX_CONCURRENT_TRADES
    ensures b == bot
  {
    b, raised := bot, false;
    var i := 0;
    while i < |steps| && |b.active| < MAX_CONCURRENT_TRADES && !raised
      invariant i <= |steps|
      invariant Inv(b)
      invariant i == 0 ==> b == bot
      invariant i > 0 ==> IdentifyOpportunitiesAsWritten(steps[0].technical, steps[0].options).Some?
      invariant raised ==> i < |steps| && |b.active| < MAX_CONCURRENT_TRADES
      invariant raised ==> IdentifyOpportunitiesAsWritten(steps[i].technical, steps[i].options).None?
      decreases |steps| - i, if raised then 0 else 1
    {
      var step := steps[i];
      var found := IdentifyOpportunitiesAsWritten(step.technical, step.options);
      if found.None? {
        raised := true;
      } else {
        b := ProcessOpportunities(b, found.value, step.technical.symbol, step.market);
        b := ManagePositions(b, step.market);
        i := i + 1;
      }
    }
    if |steps| > 0 {
      IdentifyAsWrittenAlwaysFails(steps[0].technical, steps[0].options);
    }
  }

  // ---------------------------------------------------------------- risk ceiling

  /** An open whose parameters pass the risk manager's limits, on a symbol not
      yet held, leaves the bot's total risk within the 6% ceiling. */
  lemma ValidatedOpenStaysWithinCeiling(bot: Bot, opp: Opportunity, params: Trade, gatewayOk: bool)
    requires Inv(bot) && bot.risk.totalRisk <= MAX_TOTAL_RISK
    requires params.entryPrice != 0.0 && params.symbol !in bot.active
    requires WithinLimits(bot.risk, params, bot.active)
    ensures Inv(ExecuteTrade(bot, opp, params, gatewayOk))
    ensures ExecuteTrade(bot, opp, params, gatewayOk).risk.totalRisk <= MAX_TOTAL_RISK
  {
    ExecutePreservesInv(bot, opp, params, gatewayOk);
    if Acknowledged(KindOf(opp), gatewayOk) {
      AcceptedOpenStaysWithinCeiling(bot.risk, params, bot.active);
    }
  }

  /** Options opportunities bypass the risk manager: a bot already at the 6%
      ceiling accepts an options spread whose open takes it to 8%. */
  lemma OptionsOpenCanExceedCeiling()
    ensures var held := Trade("ETH/USDT", OPTIONS, LONG, 100.0, 3.0, 98.0, 200.0);
            var bot := Bot(map["ETH/USDT" := held], RiskState(map["ETH/USDT" := held], 0.06), 100000.0, true);
            var opp := OptionsOpportunity("BTC/USDT", VERTICAL_SPREADS, OS.NoSpread);
            var params := Trade("BTC/USDT", OPTIONS, LONG, 100.0, 1.0, 98.0, 200.0);
            var after := ExecuteTrade(bot, opp, params, true);
            && Inv(bot) && bot.risk.totalRisk == MAX_TOTAL_RISK
            && opp.symbol !in bot.active && ValidateOptionsTrade(opp)
            && Inv(after) && after.risk.totalRisk == 0.08 > MAX_TOTAL_RISK
  {
    var held := Trade("ETH/USDT", OPTIONS, LONG, 100.0, 3.0, 98.0, 200.0);
    var bot := Bot(map["ETH/USDT" := held], RiskState(map["ETH/USDT" := held], 0.06), 100000.0, true);
    var opp := OptionsOpportunity("BTC/USDT", VERTICAL_SPREADS, OS.NoSpread);
    var params := Trade("BTC/USDT", OPTIONS, LONG, 100.0, 1.0, 98.0, 200.0);
    assert TradeRisk(held) == 0.06;
    assert TradeRisk(params) == 0.02;
    TotalInsert(map[], TradeRisk, "ETH/USDT", held);
    assert map[]["ETH/USDT" := held] == map["ETH/USDT" := held];
    assert Inv(bot);
    ExecutePreservesInv(bot, opp, params, true);
  }

  // ---------------------------------------------------------------- shutdown

  /** The number of positions the drain gets through: it stops at the first
      symbol whose price cannot be fetched. */
  function DrainReach(order: seq<string>, m: Market): (n: nat)
    ensures n <= |order|
    ensures forall i | 0 <= i < n :: m.price(order[i]).Some?
    ensures n < |order| ==> m.price(order[n]).None?
  {
    if |order| == 0 || m.price(order[0]).None? then 0
    else 1 + DrainReach(order[1..], m)
  }

  /** `order` lists the held symbols, each once, in the ledger's iteration order. */
  ghost predicate Enumerates(order: seq<string>, active: Ledger) {
    && (forall i | 0 <= i < |order| :: order[i] in active)
    && (forall i, j | 0 <= i < j < |order| :: order[i] != order[j])
    && (forall k | k in active :: k in order)
  }

  /** Stopping clears the run flag and closes every open position regardless of
      its exit condition. A failed close leaves that position open and the drain
      goes on; a failed price fetch ends the drain, leaving it and every later
      position open. */
  method Stop(bot: Bot, order: seq<string>, m: Market) returns (b: Bot)
    requires Inv(bot)
    requires Enumerates(order, bot.active)
    ensures Inv(b) && !b.running
    ensures forall i | 0 <= i < |order| ::
              (order[i] in b.active <==>
                 i >= DrainReach(order, m) || !Acknowledged(bot.active[order[i]].kind, m.closeAck(order[i])))
    ensures b.active.Keys <= bot.active.Keys
    ensures forall k | k in b.active :: b.active[k] == bot.active[k]
    ensures DrainReach(order, m) == |order|
            && (forall i | 0 <= i < |order| :: Acknowledged(bot.active[order[i]].kind, m.closeAck(order[i])))
            ==> b.active == map[] && b.risk.totalRisk == 0.0
  {
    b := bot.(running := false);
    var reach := DrainReach(order, m);
    for i := 0 to reach
      invariant Inv(b) && !b.running
      invariant b.active.Keys <= bot.active.Keys
      invariant forall k | k in b.active :: b.active[k] == bot.active[k]
      invariant forall j | 0 <= j < |order| ::
                  (order[j] in b.active <==>
                     j >= i || !Acknowledged(bot.active[order[j]].kind, m.closeAck(order[j])))
    {
      var position := bot.active[order[i]];
      ClosePreservesInv(b, position, m.closeAck(order[i]));
      b := ClosePosition(b, position, m.closeAck(order[i]));
    }
  }
}

=== FILE: wrappers.dfy ===
/** The optional-value datatype used where the source returns `None` or a value. */
module Wrappers {

  datatype Option<+T> = None | Some(value: T)
}
